=== FILE: README.md ===
# pyBackup: a Dafny model of the rsync snapshot engine

pyBackup makes time-stamped, hard-linked snapshots of a source tree on an
external disk with `rsync`. This project models the engine behind one backup
run (`rsyncBackup.backup`) and proves properties of the model. The run:

- checks the lock file and the configured disk, and finds the disk's mount
  point by UUID in the output of `lsblk`;
- lists the snapshots in the backup root, splitting complete ones from
  `.inprogress` ones;
- chooses the `--link-dest` source from the `Latest` link or the newest
  snapshot, and builds the rsync command line;
- estimates the transfer size from a dry run's statistics line;
- evicts the oldest snapshots until the estimate fits the quota, accounting
  only for files with a single hard link;
- runs the transfer and counts the bytes of finished files;
- commits by renaming the in-progress directory, pointing `Latest` at it and
  recording the new size and date;
- cleans up.

A cooperative cancel flag is read before every line, file and directory, once
more after the dry run's read loop, and once more before the commit. The stand-alone remover `backup_rm` and the two
`lsblk` lookups `get_UUID` and `get_MountPoint` are modelled as well.

Modules, one file each:

- `Wrappers`: the `Option` and `Result` types.
- `Strings`: substring search (Python's `in`), code-point order of strings,
  and the sort used for the snapshot list.
- `Numbers`: rsync's comma-grouped numbers. It holds the pattern
  `(?:\d{1,3},?)+` as a predicate, parsing (remove the commas, then `int`),
  and rsync's thousands formatting as the reference it round-trips against.
- `Cancellation`: the cancel flag. The flag is set once and stays set, and
  every read of it is numbered, so a run is cancelled by naming the first
  read that sees the flag (`AtRead(k)`) or by saying that none does
  (`Never`).
- `RsyncOutput`: the dry-run size scan and the transfer loop over rsync's
  output lines.
- `FileTree`: directory trees over the disk's inode table, the bottom-up
  `os.walk` removal and its byte accounting. Every removal lowers a link
  count, so a later `os.lstat` sees the count the earlier removals left.
- `Snapshots`: the snapshot listing, the link source, the destination paths
  and the command line.
- `Eviction`: quota eviction (`__removeDirs` / `localRemove`).
- `Lsblk`: `get_UUID` and `get_MountPoint`.
- `Run`: `backup()` from the lock file to the clean-up.

The read loops of the source (the dry-run scan, the transfer, the listing
and the two `lsblk` searches) are methods. Their invariants prove that each
computes an independent closed form: `EstimateOf`, `TransferOf`,
`ListingOf`, `FirstChild`, `UUIDOf` or `MountPointOf`. The tree walks of
`backup_rm` and `localRemove` are recursive functions instead. Lemmas relate
them to reference definitions: a pre-order listing of the entries, and the
link counts the tree holds (`Refs`, `Unlinked`, `TreeBytes`). The run is
composed from these functions.

Facts about the code that the model keeps:

- Eviction may pop the snapshot that was just chosen as the link source
  (`Eviction.EvictionMayRemoveLinkSource`).
- `__getLinkDir` removes `Latest` right after reading it.
- rsync's exit code is never looked at.
- An exception leaves the lock file behind.
- The clean-up deletes a cancelled run's in-progress directory, so the next
  run starts it afresh.
- The unmounted-disk path raises before it stores the days since the last
  backup (see `Run.Crash`).
- An estimate of 0 gets no separate handling: the first progress line
  divides by it.
- Only files of `os.walk`'s `files` lists are counted. A file's size counts
  when `lstat` finds it with a single link at that moment, so a file shared
  by several snapshots is counted when its last link goes.

Several defects of the code are kept as written, as crashes in `Run.Crash`:

- `.foramt` on the unmounted-disk path;
- `None + int` after a cancelled dry run;
- `pop(0)` on an empty snapshot list;
- a division by an estimate of 0;
- `readlink` on a `Latest` that is not a link;
- `os.rename` onto a `dst_dir` that exists and is not an empty directory;
- `child['mountpoint']` (a `KeyError`) when the disk's partition has no
  `mountpoint` key in `lsblk`'s output.

## Model

| member | source | states |
|---|---|---|
| Cancellation.StopIndex | pyBackup/rsyncBackup.py:56-58 | Once `cancel()` sets the flag it stays set, so a loop of `n` steps stops at the first read that sees it: no earlier read saw it, and the loop runs to completion only when none of its reads did |
| Numbers.ParseFormatRoundTrip | pyBackup/rsyncBackup.py:144 | Every byte count rsync prints with thousands separators is a capture of the number pattern, and removing the commas and reading the digits gives back the same count |
| Numbers.ParseIgnoresCommas | pyBackup/rsyncBackup.py:165 | A comma inside a captured number does not change its value |
| RsyncOutput.EstimateOf | pyBackup/rsyncBackup.py:140-150 | The dry run reads the flag at least once, after the loop. It returns None exactly when its last read saw the flag. A size comes only from a statistics line, and a missing size only from output without one |
| RsyncOutput.GetTransferSize | pyBackup/rsyncBackup.py:135-151 | The dry-run read loop computes `EstimateOf`. It yields a size exactly when some line has exactly one statistics match and the flag is not seen by the read after the loop. Otherwise it yields None (cancelled) or leaves the size unbound (no statistics line) |
| RsyncOutput.EstimateStopsAtSizeLine | pyBackup/rsyncBackup.py:141-145 | Output after the first line with one statistics match never changes the estimate or the number of flag reads, because the loop breaks there |
| RsyncOutput.EstimateReadsPrintedTotal | pyBackup/rsyncBackup.py:140-146 | When lines without a statistics match are followed by rsync's "Total transferred file size" line for `n`, and no read sees the flag, the estimate is exactly `n` |
| RsyncOutput.TransferOf | pyBackup/rsyncBackup.py:158-169 | The loop reads the flag before each line it looks at. It stops before the end of the output exactly when its last read saw the flag, and an uncancelled transfer reads every line. Only an estimate of 0 can make it raise. Read numbers continue from those of the phases before it |
| RsyncOutput.RunTransfer | pyBackup/rsyncBackup.py:153-173 | The transfer read loop computes `TransferOf`. It processes the lines read before the flag is seen. The counter is the sum over finished-file lines. Lines without a progress match are logged with trailing whitespace stripped. A single-match line with an estimate of 0 raises, and progress ends at 100 |
| RsyncOutput.RStrip | pyBackup/rsyncBackup.py:163 | `line.rstrip()` keeps a prefix of the line that does not end in whitespace, and everything it drops is whitespace |
| RsyncOutput.FinishedBytesMonotone | pyBackup/rsyncBackup.py:164-168 | The transferred counter never decreases, and a stretch of output without a finished-file line leaves it unchanged. A finished-file line has exactly one progress match and a `(` |
| RsyncOutput.CounterSumsFinishedFiles | pyBackup/rsyncBackup.py:158-168 | Over a stream of finished-file lines, the counter is the sum of their sizes |
| Strings.SortBy | pyBackup/rsyncBackup.py:186 | `dirs.sort()` returns a permutation of its input, ordered by code-point order of the path |
| Strings.ContainsImpliesOccurs | pyBackup/rsyncBackup.py:182 | Python's `'.inprogress' in dir` holds only when the marker occurs at some position of the name |
| Strings.OccursImpliesContains | pyBackup/rsyncBackup.py:182 | Conversely, a marker that occurs at any position of the name is found by `in` |
| Snapshots.GetDirList | pyBackup/rsyncBackup.py:175-187 | The loop over `listdir` builds the listing: the complete list is a permutation of the complete snapshots found in `listdir` order, and the in-progress list keeps `listdir` order |
| Snapshots.ListingClassifiesEntries | pyBackup/rsyncBackup.py:179-186 | A snapshot is listed as complete exactly when its entry is a real directory without the marker. A path is listed as in progress exactly when its entry is a real directory whose name contains the marker. Every other entry (links, files) is dropped, so the two lists together have one element per kept directory. The complete list is sorted by path, as `dirs.sort()` leaves it |
| Snapshots.PathOrderIsNameOrder | pyBackup/rsyncBackup.py:180-186 | Sorting the joined paths orders the snapshots as their names would be ordered, because all paths share the backup root |
| Snapshots.GetLinkDir | pyBackup/rsyncBackup.py:189-198 | An existing `Latest` link gives its raw target and is removed. A `Latest` that is not a link raises. Otherwise, with snapshots present, the result is the last one of the sorted list, which no other snapshot exceeds; with none, there is no link source |
| Snapshots.DestinationClassification | pyBackup/rsyncBackup.py:101-102 | The run's `prog_dir` name is classified as in progress by the next listing. Its `dst_dir` name is classified as complete when the date string does not itself contain the marker |
| Snapshots.BuildCommand | pyBackup/rsyncBackup.py:105-111 | The command is `rsync -a --stats`, then `--exclude=` with the mount point, then one `--exclude=` per configured directory in order, then `--link-dest=` only when a link source exists |
| Snapshots.ExcludeArgsRoundTrip | pyBackup/rsyncBackup.py:107 | Reading the `--exclude=` arguments back from the argument list gives the configured directories unchanged |
| Snapshots.CommandExcludes | pyBackup/rsyncBackup.py:106-107 | The command excludes exactly the mount point followed by the configured directories |
| Snapshots.CommandLinksIffSource | pyBackup/rsyncBackup.py:110-111 | Some argument starts with `--link-dest=` if and only if a link source was found |
| FileTree.WalkPermutesEntries | pyBackup/backup_rm.py:20-31 | The bottom-up walk removes every file, link and subdirectory of the tree exactly once: its operations are a permutation of a pre-order listing of the entries |
| FileTree.Conservation | pyBackup/backup_rm.py:23-25 | Each `os.remove` lowers one link count, and `lstat` counts a size only when the count is 1. So removals never count more bytes than the inodes held, and they count exactly what they release when each removal matches how the inode is linked |
| FileTree.WalkFreesTreeBytes | pyBackup/backup_rm.py:20-31 | The walk removes exactly the links the tree holds: each inode's link count drops by the number of its links in the tree. With no inode linked both as a file and as a symbolic link to a directory, the bytes counted are the sizes of the inodes whose every remaining link is a file of the tree, hard links within the tree included |
| FileTree.WalkFreesAtMost | pyBackup/backup_rm.py:20-25 | For any tree, the walk counts at most the sizes of the inodes whose every remaining link is in the tree |
| FileTree.BackupRm | pyBackup/backup_rm.py:19-33 | `backup_rm` leaves every inode with its links in the tree removed. It returns the bytes of the inodes that lost their last link (exactly, without mixed inodes; at most, always). It removes every entry once, and the top directory last |
| FileTree.HardLinkedPairCountedOnce | pyBackup/backup_rm.py:23-24 | Two hard links of one file in the removed directory: the first `lstat` sees 2 links, the second sees 1, so the size is counted once |
| FileTree.BackupRmIsBottomUp | pyBackup/backup_rm.py:20 | With `topdown=False`, no directory is removed before anything inside it, in a tree whose directory names are unique |
| FileTree.SharedFilesFreeNothing | pyBackup/backup_rm.py:23-24 | Removing a tree each of whose inodes keeps a link outside it frees no accounted bytes |
| FileTree.UnlinkedAppend | pyBackup/backup_rm.py:23-25 | Removing the links of one list of entries and then of another leaves the same link counts as removing both at once |
| FileTree.TreeBytesAppend | pyBackup/backup_rm.py:19-25 | Removing two lists of entries one after the other reclaims what removing both reclaims. The second reclaims, on the table the first left, the inodes whose last links the first left to it |
| FileTree.TreeBytesDisjoint | pyBackup/backup_rm.py:19-25 | Lists of entries that share no inode reclaim the sum of what each reclaims alone |
| Eviction.Evict | pyBackup/rsyncBackup.py:215-237 | Only the oldest snapshots are popped, as a prefix of the list. Nothing is popped if the backup already fits. It stops with the backup fitting, or raises after popping everything when it still does not fit. It returns cancelled exactly at the first read that sees the flag: a cancelled eviction's last read saw it, and no read of an eviction that was not cancelled did. Whenever the flag did not stop it, the link counts and the accounted size are what the walks of the popped snapshots, in order, leave, and one snapshot fewer would not have made the backup fit. When the flag stopped it, they are what the operations of those walks performed before the read that saw the flag leave, that read being the one before the next removal |
| Eviction.PopOldest | pyBackup/rsyncBackup.py:217-233 | One round of the loop, entered with the backup not fitting: it pops the oldest snapshot and walks it, returning cancelled at the first read that sees the flag; after a complete walk it goes on with the rest of the list, so the same promises hold with at least one snapshot popped |
| Eviction.EvictPerformed | pyBackup/rsyncBackup.py:215-237 | Cancelled or not, the link counts and the accounted size that `saveConfig` stores are those left by the first `Performed` operations of the popped snapshots' walks, and these are all of the operations exactly when the flag did not stop the eviction |
| Eviction.PoppedReclaim | pyBackup/rsyncBackup.py:219-225 | Walking whole snapshots one after the other removes exactly their links and, without mixed inodes, gives back the bytes of the inodes whose last links they hold |
| Eviction.EvictReclaims | pyBackup/rsyncBackup.py:215-237 | For every eviction the flag did not stop, whether it fits or runs out of snapshots: the link counts lose exactly the links of the popped snapshots, and, without mixed inodes, the accounted size drops by the bytes deleting them in order gives back, and the snapshots popped before the last did not make room |
| Eviction.SnapshotBytesPrefix | pyBackup/rsyncBackup.py:217-225 | Deleting only the oldest snapshots never gives back more bytes than deleting all of them |
| Eviction.EvictionMayRemoveLinkSource | pyBackup/rsyncBackup.py:217-218 | When all the older snapshots together cannot make room, the newest one, which is the link source offered by the listing, is popped and deleted as well |
| Eviction.SharedFileFreedBySecondPop | pyBackup/rsyncBackup.py:217-225 | Two snapshots sharing one 100-byte file, 100 bytes accounted, an estimate of 100 and a 150-byte quota: the first pop frees nothing, the second frees the 100 bytes, and the backup fits with both popped |
| Eviction.EvictAsWritten | pyBackup/rsyncBackup.py:232 | As written, an uncancelled eviction raises after the walk of the first popped snapshot, because `dirPath` is not defined in `localRemove` |
| Lsblk.SearchChildren | pyBackup/utils.py:31-36 | The nested device and child loop returns the first visited child, in device order then child order, that satisfies the test. Devices without a `children` key, or with an empty list, are skipped |
| Lsblk.StripSep | pyBackup/utils.py:29 | A single trailing separator is dropped from the query and nothing else changes |
| Lsblk.GetUUID | pyBackup/utils.py:19-37 | An empty query raises an IndexError. Otherwise the result is the uuid of the first child whose non-empty mount point contains the query: a `KeyError` when that child has no `uuid` key, None when the key holds null, and None when no child's mount point matches. A `KeyError` needs a matching child without the key |
| Lsblk.UUIDMatchesBySubstring | pyBackup/utils.py:34-36 | The match is by substring: a child mounted at any non-empty path in which the query occurs is found, so `/mnt/` finds the disk mounted at `/mnt/backup` |
| Lsblk.GetMountPoint | pyBackup/utils.py:39-55 | The result is the mount point of the first child with exactly the given uuid: a `KeyError` when that child has no `mountpoint` key, None when the key holds null, and None when no child has the uuid. A found mount point belongs to a child with that uuid |
| Lsblk.ChildlessDevicesIgnored | pyBackup/utils.py:32 | A device without children changes neither lookup |
| Run.TransferAndCommit | pyBackup/rsyncBackup.py:114-124 | After eviction: `pop(0)` on an empty list raises with the configuration unchanged. Otherwise the saved size is what eviction accounted, plus the estimate exactly when the run commits, and an uncommitted run keeps the rest of the configuration |
| Run.RestoredLatest | pyBackup/rsyncBackup.py:130-132 | `Latest` is re-created from the link source only when it is missing and a link source exists. Otherwise it is left as found |
| Run.CleanUp | pyBackup/rsyncBackup.py:126-132 | The directories removed are exactly the listed in-progress directories that exist, each once. Then `Latest` is restored |
| Run.CleanUpAfterRun | pyBackup/rsyncBackup.py:116-129 | At the end of a run, every in-progress directory found by the listing is removed, and nothing else except `prog_dir`. A committed run's `prog_dir` was renamed and is not touched. A cancelled run's `prog_dir` is removed exactly when it exists |
| Run.CleanUpAsWrittenRaisesAfterCommit | pyBackup/rsyncBackup.py:128-129 | As written, the clean-up raises on the renamed `prog_dir`, whatever in-progress directories come before it |
| Run.CleanUpAgreesWhenAllExist | pyBackup/rsyncBackup.py:126-133 | When every listed in-progress directory exists, the clean-up as written and as intended end the same way, and both remove every listed directory |
| Run.RunBackup | pyBackup/rsyncBackup.py:60-124 | An existing lock file makes the run a no-op. Without a disk UUID the lock file is removed and nothing else changes. Otherwise the lock file survives exactly when the run raises. A finished run made two rsync runs into `prog_dir` with the planned command. It commits exactly when the last flag read did not see the flag. A run whose eviction was cancelled, or whose transfer stopped before the end of the output, does not commit, and an uncancelled run does. A commit needs a `dst_dir` that the rename can take. It points `Latest` at the new snapshot and records the date. A run that is not committed keeps the recorded date and restores `Latest` to the link source. The clean-up removes the listed in-progress directories and, when not committed, `prog_dir` if it exists. `get_MountPoint`'s `KeyError` and a missing or empty mount point raise with the lock kept, a finished run had the disk mounted, and a flag seen by the dry run's first read makes the run raise at `None + int`. Whenever the flag did not stop the eviction, it removed exactly the evicted snapshots' links, and every committed run records the old size minus the bytes they gave back plus the estimate. Every run saves the old size less what the removals it performed gave back, all of the popped snapshots' walk operations or, when the flag stopped eviction, those before the read that saw it. A commit adds the estimate, and a run that raises at `pop(0)` saves nothing, so its configuration is unchanged |
| Run.Backup | pyBackup/rsyncBackup.py:93-124 | The same promises for the part of the run after the disk was found mounted, the saved size and the recorded removals included: it never skips, it keeps the lock exactly when it raises, and a flag seen by the dry run's first read raises at `None + int` |

## Left out

- The regular-expression engine: each rsync output line comes with the captures `size_regex.findall` and `part_regex.findall` return for it. `trans_regex` is never used by the engine.
- Processes, pipes, the file system and `lsblk` are data. rsync's output, the backup root, `Latest` and the `lsblk` devices are inputs, and the run's effects are its outcome. Whether the real rsync run created `prog_dir` is an input too.
- Dates: the date string is an input. The days-since computation on the unmounted path is not modelled, because that path raises at the `.foramt` call before it stores anything.
- Logging, `statusTXT` and `__size_fmt` have no effect on the run's state. Creating the rotating log handler opens the log file, which can raise after the lock file was created and so leave the lock behind; the model assumes it succeeds.
- Digits are ASCII digits (`Numbers.IsDigit`). Python's `\d` and `int()` also accept other Unicode decimal digits, but rsync prints its statistics in ASCII.
- The intermediate floating-point progress values are left out, and with them the fact that the code does not clamp them to 100 while the transfer runs; only the final progress of 100 is kept.
- Loading and saving the configuration file: the configuration is a value, and the outcome says which configuration the run saved.
- `loadConfig`'s hostname suffix, the GUI and the command-line front end are outside the engine.
- `proc.terminate()` and `proc.communicate()` are left out; the line 171 test `if self.cancel:` names the method, so it is always true, and it only terminates the process.
- Directory names are assumed unique within a directory where bottom-up order is proved (`FileTree.WellFormed`), as a file system guarantees.
- Run.RunBackup: the size identity in terms of whole snapshots (`SnapshotBytes`) needs the evicted snapshots free of mixed inodes, as for Eviction.EvictReclaims; for every run the saved size and the link counts are stated in terms of the removals performed (`SizeSaved`). After an eviction the flag stopped part-way through a snapshot, they are not stated in terms of whole snapshots.
- Run.Backup: the size identity and the link counts in terms of whole snapshots have the same conditions as in Run.RunBackup.
- FileTree.WalkFreesTreeBytes: the exact byte count is stated only when no inode is linked both as a file and as a symbolic link to a directory (`NoMixedInodes`). For such an inode the count depends on which of its links the walk removes last. A hard-linked symbolic link would have to resolve to a directory in one place and not in another. For every tree, `FileTree.WalkFreesAtMost` bounds the count.
- FileTree.BackupRm: the exact byte count needs `NoMixedInodes`, as for FileTree.WalkFreesTreeBytes; the upper bound holds for every tree.
- FileTree.TreeBytesAppend: stated for lists of entries without mixed inodes, for the same reason.
- Eviction.EvictReclaims: the accounted-size identity in terms of whole snapshots, and the stop-as-soon-as-it-fits clause in those terms, need the popped snapshots free of mixed inodes, for the same reason. `Eviction.Evict` states both for every input in terms of the walks performed.
- Eviction.SnapshotBytesPrefix: stated for snapshots without mixed inodes, for the same reason.
- Eviction.EvictionMayRemoveLinkSource: stated for snapshot lists without mixed inodes, because it rests on Eviction.EvictReclaims.
- Link counts stop at 0 (`FileTree.Lowered`). A table recording fewer links than the tree holds is not a state a file system reaches.
- The links the transfer adds to existing inodes through `--link-dest` are not recorded in the inode table: they are made after eviction, and nothing in the run reads the counts afterwards.
- Eviction.Evict: removes the popped top directory after its walk, as `backup_rm` does; the code as written raises there (see Findings).
- Run.CleanUp: passes over a listed in-progress directory that no longer exists; the code as written raises there (see Findings).

## Findings

| source | as written | input that shows it | evidently intended | confidence | as-written member | corrected member |
|---|---|---|---|---|---|---|
| pyBackup/rsyncBackup.py:232 | `os.rmdir( dirPath )` inside `localRemove`, where no `dirPath` is defined | any run whose estimate does not fit, with at least one complete snapshot and no cancel | remove the popped snapshot's top directory and keep evicting, as `backup_rm` does | high (not executed) | Eviction.EvictAsWritten | Eviction.Evict |
| pyBackup/rsyncBackup.py:128-129 | `shutil.rmtree` on every path of `inProg_list`, which includes `prog_dir` | any committed run: line 117 renamed `prog_dir` to `dst_dir`, so `rmtree(prog_dir)` raises and the lock file is left | remove exactly the listed in-progress directories that still exist | high (not executed) | Run.CleanUpAsWrittenRaisesAfterCommit | Run.CleanUp |

=== FILE: cancel.dfy ===
/**
 * The engine's cancel flag. `cancel()` may be called from another thread at
 * any time and the flag is never cleared, so a run observes it as a sequence
 * of reads that are false up to some read and true from then on. Reads are
 * numbered across the whole run, in the order the engine performs them.
 */
module Cancellation {

  datatype CancelPoint =
    | Never              // the flag is never seen set during the run
    | AtRead(k: nat)     // read number k is the first to see the flag set

  /** Read number `i` sees the flag set. */
  predicate Seen(c: CancelPoint, i: nat)
  {
    c.AtRead? && c.k <= i
  }

  /**
   * A loop that reads the flag before each of up to `n` steps, starting at
   * read number `base`, and stops at the first read that sees it: the number
   * of steps it completes.
   */
  function StopIndex(c: CancelPoint, base: nat, n: nat): (j: nat)
    ensures j <= n
    ensures 0 < j ==> !Seen(c, base + j - 1)  // so no earlier read saw it either
    ensures j < n ==> Seen(c, base + j)
  {
    match c
    case Never => n
    case AtRead(k) => if k <= base then 0 else if k - base < n then k - base else n
  }
}

=== FILE: eviction.dfy ===
/**
 * Quota eviction (rsyncBackup.__removeDirs and its inner localRemove): while
 * the accounted size plus the estimate exceeds the disk size, pop the oldest
 * complete snapshot and delete it bottom-up, subtracting the size of every
 * file whose `lstat` shows a single link; the cancel flag is read before
 * every file and directory operation. Every removal lowers a link count in
 * the inode table, so a file shared by two snapshots is counted when the
 * second of them is deleted.
 */
module Eviction {
  import opened FileTree
  import opened Snapshots
  import opened Cancellation

  datatype EvictStatus =
    | Fits              // the loop condition became false
    | EvictCancelled    // the flag was seen before a file or directory operation
    | NothingToPop      // `self.dir_list.pop(0)` on an empty list raises IndexError
    | UndefinedDirPath  // `os.rmdir(dirPath)` raises NameError (the code as written)

  /**
   * The outcome: the accounted size (`config['backup_size']`), the snapshots
   * popped from the front of the list (the last one only partly deleted when
   * cancelled), the inode table left and the number of the next flag read.
   */
  datatype Eviction = Eviction(status: EvictStatus, accounted: int, popped: seq<Snapshot>, inodes: Inodes, flagReads: nat)

  /** The entries of the given snapshots, oldest first. */
  function Entries(ss: seq<Snapshot>): seq<Node>
  {
    if |ss| == 0 then [] else ss[0].children + Entries(ss[1..])
  }

  /** The operations that deleting the given snapshots completely performs, oldest first. */
  function PoppedOps(ss: seq<Snapshot>): seq<Op>
  {
    if |ss| == 0 then [] else WalkOps([], ss[0].children) + PoppedOps(ss[1..])
  }

  /**
   * The flag stopped the eviction at the read before operation `k` of the
   * popped snapshots' walks: exactly the first `k` operations were performed,
   * and the accounted size and the link counts are what they left.
   */
  predicate StoppedBefore(accounted: int, fs: Inodes, popped: seq<Snapshot>, k: int, r: Eviction)
  {
    var ops := PoppedOps(popped);
    && 0 <= k < |ops|
    && r.accounted == accounted - Freed(fs, ops[..k])
    && r.inodes == After(fs, ops[..k])
  }

  /** Bytes that deleting the given snapshots, in order, gives back. */
  function SnapshotBytes(ss: seq<Snapshot>, fs: Inodes): nat
  {
    TreeBytes(Entries(ss), fs)
  }

  lemma {:induction false} EntriesAppend(a: seq<Snapshot>, b: seq<Snapshot>)
    ensures Entries(a + b) == Entries(a) + Entries(b)
  {
    if |a| == 0 {
      assert a + b == b;
    } else {
      assert (a + b)[0] == a[0];
      assert (a + b)[1..] == a[1..] + b;
      EntriesAppend(a[1..], b);
    }
  }

  /** Deleting `s` and then `rest`: the step the eviction loop takes. */
  lemma PopStep(s: Snapshot, rest: seq<Snapshot>, fs: Inodes)
    ensures Entries([s] + rest) == s.children + Entries(rest)
    ensures Unlinked(Unlinked(fs, s.children), Entries(rest)) == Unlinked(fs, Entries([s] + rest))
    ensures NoMixedInodes(Entries([s] + rest)) ==>
              && NoMixedInodes(s.children) && NoMixedInodes(Entries(rest))
              && SnapshotBytes([s] + rest, fs)
                 == TreeBytes(s.children, fs) + SnapshotBytes(rest, Unlinked(fs, s.children))
  {
    assert ([s] + rest)[0] == s && ([s] + rest)[1..] == rest;
    UnlinkedAppend(fs, s.children, Entries(rest));
    if NoMixedInodes(Entries([s] + rest)) {
      NoMixedAppend(s.children, Entries(rest));
      TreeBytesAppend(s.children, Entries(rest), fs);
    }
  }

  /** The oldest snapshots of a list without mixed inodes have none either. */
  lemma NoMixedPrefix(ss: seq<Snapshot>, k: nat)
    requires k <= |ss|
    ensures NoMixedInodes(Entries(ss)) ==> NoMixedInodes(Entries(ss[..k]))
  {
    assert ss == ss[..k] + ss[k..];
    EntriesAppend(ss[..k], ss[k..]);
    if NoMixedInodes(Entries(ss)) {
      NoMixedAppend(Entries(ss[..k]), Entries(ss[k..]));
    }
  }

  /**
   * What an eviction `r` of `queue` promises, started with `accounted` bytes
   * accounted, link counts `fs` and flag reads numbered from `base`.
   */
  predicate Evicted(accounted: int, estimate: nat, diskSize: int, queue: seq<Snapshot>, fs: Inodes, c: CancelPoint, base: nat, r: Eviction)
  {
    // only the oldest snapshots are popped, as a prefix of the list
    && |r.popped| <= |queue| && r.popped == queue[..|r.popped|]
    && r.flagReads >= base
    && r.status != UndefinedDirPath
    // it ends with the backup fitting, or raises with every snapshot popped and the backup still too big
    && (r.status == Fits ==> r.accounted + estimate <= diskSize)
    && (r.status == NothingToPop ==> r.popped == queue && r.accounted + estimate > diskSize)
    // it returns at the first read that sees the flag: no read it made before stopping otherwise saw it
    && (r.status == EvictCancelled ==> r.flagReads > base && Seen(c, r.flagReads - 1))
    && (r.status != EvictCancelled && r.flagReads > base ==> !Seen(c, r.flagReads - 1))
    && (c == Never ==> r.status != EvictCancelled)
    // `return` leaves what the removals before the read that saw the flag left, for `saveConfig` to store
    && (r.status == EvictCancelled ==> StoppedBefore(accounted, fs, r.popped, r.flagReads - 1 - base, r))
    // an eviction the flag did not stop performed the whole walk of every popped snapshot
    && (r.status != EvictCancelled ==>
          r.inodes == After(fs, PoppedOps(r.popped)) && r.accounted == accounted - Freed(fs, PoppedOps(r.popped)))
    // it stops as soon as the backup fits: before the last pop it still did not
    && (r.status == Fits && |r.popped| > 0 ==>
          accounted - Freed(fs, PoppedOps(r.popped[..|r.popped| - 1])) + estimate > diskSize)
  }

  /**
   * localRemove with the popped directory removed at the end of its walk, as
   * backup_rm.backup_rm does; flag reads are numbered from `base`.
   */
  function Evict(accounted: int, estimate: nat, diskSize: int, queue: seq<Snapshot>, fs: Inodes, c: CancelPoint, base: nat): (r: Eviction)
    ensures Evicted(accounted, estimate, diskSize, queue, fs, c, base, r)
    ensures accounted + estimate <= diskSize ==> r == Eviction(Fits, accounted, [], fs, base)
    ensures accounted + estimate > diskSize && |queue| > 0 ==> |r.popped| >= 1
    decreases |queue|, 2
  {
    if accounted + estimate <= diskSize then
      Eviction(Fits, accounted, [], fs, base)
    else if |queue| == 0 then
      Eviction(NothingToPop, accounted, [], fs, base)
    else
      PopOldest(accounted, estimate, diskSize, queue, fs, c, base)
  }

  /**
   * One round of the loop while the backup does not fit: the oldest
   * snapshot is deleted with the flag read after each entry, and the loop
   * goes on with the rest unless the flag stopped it.
   */
  function PopOldest(accounted: int, estimate: nat, diskSize: int, queue: seq<Snapshot>, fs: Inodes, c: CancelPoint, base: nat): (r: Eviction)
    requires accounted + estimate > diskSize && |queue| > 0
    ensures |r.popped| >= 1 && Evicted(accounted, estimate, diskSize, queue, fs, c, base, r)
    decreases |queue|, 1
  {
    var ops := WalkOps([], queue[0].children);
    if StopIndex(c, base, |ops|) < |ops| then
      StopInOldest(accounted, queue, fs, c, base)
    else
      NextRounds(accounted, estimate, diskSize, queue, fs, c, base)
  }

  /**
   * The rest of the loop once the oldest snapshot was deleted completely,
   * with no read of the flag seeing it.
   */
  function NextRounds(accounted: int, estimate: nat, diskSize: int, queue: seq<Snapshot>, fs: Inodes, c: CancelPoint, base: nat): (r: Eviction)
    requires accounted + estimate > diskSize && |queue| > 0
    requires StopIndex(c, base, |WalkOps([], queue[0].children)|) == |WalkOps([], queue[0].children)|
    ensures |r.popped| >= 1 && Evicted(accounted, estimate, diskSize, queue, fs, c, base, r)
    decreases |queue|, 0
  {
    var ops := WalkOps([], queue[0].children);
    var left, fs' := accounted - Freed(fs, ops), After(fs, ops);
    var rest := Evict(left, estimate, diskSize, queue[1..], fs', c, base + |ops|);
    FinishedRound(accounted, estimate, diskSize, queue, fs, c, base, left, fs', rest);
    Prepended(queue[0], rest)
  }

  /** The eviction `rest` with `s` popped before it. */
  function Prepended(s: Snapshot, rest: Eviction): Eviction
  {
    rest.(popped := [s] + rest.popped)
  }

  /**
   * A round of the loop that deleted the oldest snapshot completely, with no
   * read of the flag seeing it, leaving `left` and `fs'`, followed by `rest`,
   * the eviction of the remaining snapshots from there: together they are
   * an eviction of the whole queue.
   */
  lemma FinishedRound(accounted: int, estimate: nat, diskSize: int, queue: seq<Snapshot>, fs: Inodes, c: CancelPoint, base: nat,
                      left: int, fs': Inodes, rest: Eviction)
    requires accounted + estimate > diskSize && |queue| > 0
    requires StopIndex(c, base, |WalkOps([], queue[0].children)|) == |WalkOps([], queue[0].children)|
    requires left == accounted - Freed(fs, WalkOps([], queue[0].children)) && fs' == After(fs, WalkOps([], queue[0].children))
    requires Evicted(left, estimate, diskSize, queue[1..], fs', c, base + |WalkOps([], queue[0].children)|, rest)
    ensures |Prepended(queue[0], rest).popped| >= 1
    ensures Evicted(accounted, estimate, diskSize, queue, fs, c, base, Prepended(queue[0], rest))
  {
    PopThenEvict(accounted, estimate, diskSize, queue, fs, c, base, left, fs', rest);
    RoundAccounting(accounted, estimate, diskSize, queue, fs, c, base, left, fs', rest);
    CancelledAfterRound(accounted, estimate, diskSize, queue, fs, c, base, left, fs', rest);
  }

  /**
   * One round of the loop: the oldest snapshot is deleted completely, with
   * no read of the flag seeing it, and `rest` is what the remaining rounds
   * do from there; these are the facts about the popped list and the flag.
   */
  lemma PopThenEvict(accounted: int, estimate: nat, diskSize: int, queue: seq<Snapshot>, fs: Inodes, c: CancelPoint, base: nat,
                     left: int, fs': Inodes, rest: Eviction)
    requires |queue| > 0
    requires StopIndex(c, base, |WalkOps([], queue[0].children)|) == |WalkOps([], queue[0].children)|
    requires Evicted(left, estimate, diskSize, queue[1..], fs', c, base + |WalkOps([], queue[0].children)|, rest)
    ensures var r := Prepended(queue[0], rest); 1 <= |r.popped| <= |queue| && r.popped == queue[..|r.popped|]
    ensures var r := Prepended(queue[0], rest); r.flagReads >= base && r.status != UndefinedDirPath
    ensures var r := Prepended(queue[0], rest); r.status == Fits ==> r.accounted + estimate <= diskSize
    ensures var r := Prepended(queue[0], rest); r.status == NothingToPop ==> r.popped == queue && r.accounted + estimate > diskSize
    ensures var r := Prepended(queue[0], rest); r.status == EvictCancelled ==> r.flagReads > base && Seen(c, r.flagReads - 1)
    ensures var r := Prepended(queue[0], rest); r.status != EvictCancelled && r.flagReads > base ==> !Seen(c, r.flagReads - 1)
    ensures var r := Prepended(queue[0], rest); c == Never ==> r.status != EvictCancelled
  {
    var n := |WalkOps([], queue[0].children)|;
    PoppedPrefix(queue, rest.popped);
    if rest.status != EvictCancelled && rest.flagReads == base + n && n > 0 {
      assert !Seen(c, base + n - 1);
    }
  }

  /**
   * The same round seen from the inode table and the accounted size:
   * deleting the oldest snapshot completely and then what `rest` popped
   * performs the walks of all of them in order.
   */
  lemma RoundAccounting(accounted: int, estimate: nat, diskSize: int, queue: seq<Snapshot>, fs: Inodes, c: CancelPoint, base: nat,
                        left: int, fs': Inodes, rest: Eviction)
    requires accounted + estimate > diskSize && |queue| > 0
    requires left == accounted - Freed(fs, WalkOps([], queue[0].children)) && fs' == After(fs, WalkOps([], queue[0].children))
    requires Evicted(left, estimate, diskSize, queue[1..], fs', c, base + |WalkOps([], queue[0].children)|, rest)
    ensures var r := Prepended(queue[0], rest);
            r.status != EvictCancelled ==>
              r.inodes == After(fs, PoppedOps(r.popped)) && r.accounted == accounted - Freed(fs, PoppedOps(r.popped))
    ensures var r := Prepended(queue[0], rest);
            r.status == Fits && |r.popped| > 0 ==>
              accounted - Freed(fs, PoppedOps(r.popped[..|r.popped| - 1])) + estimate > diskSize
  {
    var s := queue[0];
    var ops := WalkOps([], s.children);
    var popped := [s] + rest.popped;
    assert Prepended(s, rest).popped == popped;
    if rest.status != EvictCancelled {
      PoppedOpsCons(s, rest.popped);
      FreedAppend(fs, ops, PoppedOps(rest.popped));
    }
    if rest.status == Fits {
      if |rest.popped| > 0 {
        var init := rest.popped[..|rest.popped| - 1];
        ConsDropLast(s, rest.popped);
        PoppedOpsCons(s, init);
        FreedAppend(fs, ops, PoppedOps(init));
      } else {
        assert popped[..0] == [];
      }
    }
  }

  /**
   * The flag stopping the remaining rounds, after the oldest snapshot was
   * deleted completely, stops the whole eviction at the same read, counted
   * from before that snapshot's walk.
   */
  lemma CancelledAfterRound(accounted: int, estimate: nat, diskSize: int, queue: seq<Snapshot>, fs: Inodes, c: CancelPoint, base: nat,
                            left: int, fs': Inodes, rest: Eviction)
    requires |queue| > 0
    requires left == accounted - Freed(fs, WalkOps([], queue[0].children)) && fs' == After(fs, WalkOps([], queue[0].children))
    requires Evicted(left, estimate, diskSize, queue[1..], fs', c, base + |WalkOps([], queue[0].children)|, rest)
    ensures var r := Prepended(queue[0], rest);
            r.status == EvictCancelled ==> StoppedBefore(accounted, fs, r.popped, r.flagReads - 1 - base, r)
  {
    if rest.status == EvictCancelled {
      var s := queue[0];
      var ops, more := WalkOps([], s.children), PoppedOps(rest.popped);
      var k := rest.flagReads - 1 - (base + |ops|);
      assert Prepended(s, rest).popped == [s] + rest.popped;
      PoppedOpsCons(s, rest.popped);
      PrefixPastHead(ops, more, k);
      FreedAppend(fs, ops, more[..k]);
    }
  }

  lemma PrefixPastHead<T>(a: seq<T>, b: seq<T>, k: nat)
    requires k <= |b|
    ensures (a + b)[..|a| + k] == a + b[..k]
  {
  }

  /**
   * The round in which a read of the flag during the oldest snapshot's walk
   * sees it: `return` leaves that snapshot popped and partly deleted.
   */
  function StopInOldest(accounted: int, queue: seq<Snapshot>, fs: Inodes, c: CancelPoint, base: nat): (r: Eviction)
    requires |queue| > 0
    requires StopIndex(c, base, |WalkOps([], queue[0].children)|) < |WalkOps([], queue[0].children)|
    ensures r.status == EvictCancelled && r.popped == queue[..1]
    ensures r.flagReads > base && Seen(c, r.flagReads - 1)
    ensures StoppedBefore(accounted, fs, r.popped, r.flagReads - 1 - base, r)
  {
    var ops := WalkOps([], queue[0].children);
    var j := StopIndex(c, base, |ops|);
    assert queue[..1] == [queue[0]] && [queue[0]][1..] == [];
    assert PoppedOps([queue[0]]) == ops + [] == ops;
    Eviction(EvictCancelled, accounted - Freed(fs, ops[..j]), [queue[0]], After(fs, ops[..j]), base + j + 1)
  }

  lemma ConsDropLast<T>(x: T, s: seq<T>)
    requires |s| > 0
    ensures ([x] + s)[..|s|] == [x] + s[..|s| - 1]
  {
  }

  lemma PrefixOfPrefix<T>(s: seq<T>, m: nat, n: nat)
    requires n <= m <= |s|
    ensures s[..m][..n] == s[..n]
  {
  }

  lemma PoppedOpsCons(s: Snapshot, rest: seq<Snapshot>)
    ensures PoppedOps([s] + rest) == WalkOps([], s.children) + PoppedOps(rest)
  {
    assert ([s] + rest)[0] == s && ([s] + rest)[1..] == rest;
  }

  /**
   * Deleting whole snapshots one after the other removes exactly their
   * links, and, without mixed inodes, gives back what deleting all their
   * entries gives back.
   */
  lemma {:induction false} PoppedReclaim(ss: seq<Snapshot>, fs: Inodes)
    ensures After(fs, PoppedOps(ss)) == Unlinked(fs, Entries(ss))
    ensures NoMixedInodes(Entries(ss)) ==> Freed(fs, PoppedOps(ss)) == SnapshotBytes(ss, fs)
  {
    if |ss| == 0 {
      assert Unlinked(fs, []) == fs;
      TreeBytesNone(fs, |fs|);
    } else {
      var s, rest := ss[0], ss[1..];
      var ops := WalkOps([], s.children);
      assert ss == [s] + rest;
      PoppedOpsCons(s, rest);
      FreedAppend(fs, ops, PoppedOps(rest));
      WalkFreesTreeBytes([], s.children, fs);
      PoppedReclaim(rest, After(fs, ops));
      PopStep(s, rest, fs);
    }
  }

  /**
   * How many operations of the popped snapshots' walks an eviction performed
   * that numbered its flag reads from `base`: those before the read that saw
   * the flag, or all of them.
   */
  function Performed(r: Eviction, base: nat): nat
  {
    if r.status == EvictCancelled && r.flagReads > base then r.flagReads - 1 - base else |PoppedOps(r.popped)|
  }

  /**
   * Cancelled or not, an eviction leaves the accounted size and the link
   * counts that the operations it performed leave, in walk order; it
   * performed them all exactly when the flag did not stop it.
   */
  lemma EvictPerformed(accounted: int, estimate: nat, diskSize: int, queue: seq<Snapshot>, fs: Inodes, c: CancelPoint, base: nat)
    ensures var r := Evict(accounted, estimate, diskSize, queue, fs, c, base);
            Performed(r, base) <= |PoppedOps(r.popped)|
            && (Performed(r, base) == |PoppedOps(r.popped)| <==> r.status != EvictCancelled)
    ensures var r := Evict(accounted, estimate, diskSize, queue, fs, c, base);
            var done := PoppedOps(r.popped)[..Performed(r, base)];
            r.accounted == accounted - Freed(fs, done) && r.inodes == After(fs, done)
  {
    var r := Evict(accounted, estimate, diskSize, queue, fs, c, base);
    var ops := PoppedOps(r.popped);
    if r.status != EvictCancelled {
      assert ops[..|ops|] == ops;
    }
  }

  /**
   * An eviction the flag did not stop deleted its popped snapshots
   * completely: the link counts lost exactly their links, and, without
   * mixed inodes, the accounted size dropped by the bytes that deleting
   * them in order gives back; it stopped as soon as the backup fit.
   */
  lemma EvictReclaims(accounted: int, estimate: nat, diskSize: int, queue: seq<Snapshot>, fs: Inodes, c: CancelPoint, base: nat)
    ensures var r := Evict(accounted, estimate, diskSize, queue, fs, c, base);
            r.status != EvictCancelled ==> r.inodes == Unlinked(fs, Entries(r.popped))
    ensures var r := Evict(accounted, estimate, diskSize, queue, fs, c, base);
            r.status != EvictCancelled && NoMixedInodes(Entries(r.popped)) ==>
              r.accounted == accounted - SnapshotBytes(r.popped, fs)
    ensures var r := Evict(accounted, estimate, diskSize, queue, fs, c, base);
            r.status == Fits && |r.popped| > 0 && NoMixedInodes(Entries(r.popped)) ==>
              accounted - SnapshotBytes(r.popped[..|r.popped| - 1], fs) + estimate > diskSize
  {
    var r := Evict(accounted, estimate, diskSize, queue, fs, c, base);
    if r.status != EvictCancelled {
      ReclaimedBy(accounted, estimate, diskSize, fs, r);
    }
  }

  lemma ReclaimedBy(accounted: int, estimate: nat, diskSize: int, fs: Inodes, r: Eviction)
    requires r.status != EvictCancelled ==>
               r.inodes == After(fs, PoppedOps(r.popped)) && r.accounted == accounted - Freed(fs, PoppedOps(r.popped))
    requires r.status == Fits && |r.popped| > 0 ==>
               accounted - Freed(fs, PoppedOps(r.popped[..|r.popped| - 1])) + estimate > diskSize
    ensures r.status != EvictCancelled ==> r.inodes == Unlinked(fs, Entries(r.popped))
    ensures r.status != EvictCancelled && NoMixedInodes(Entries(r.popped)) ==>
              r.accounted == accounted - SnapshotBytes(r.popped, fs)
    ensures r.status == Fits && |r.popped| > 0 && NoMixedInodes(Entries(r.popped)) ==>
              accounted - SnapshotBytes(r.popped[..|r.popped| - 1], fs) + estimate > diskSize
  {
    PoppedReclaim(r.popped, fs);
    if |r.popped| > 0 {
      var older := r.popped[..|r.popped| - 1];
      NoMixedPrefix(r.popped, |older|);
      PoppedReclaim(older, fs);
    }
  }

  lemma PoppedPrefix<T>(queue: seq<T>, popped: seq<T>)
    requires |queue| > 0 && |popped| <= |queue| - 1 && popped == queue[1..][..|popped|]
    ensures [queue[0]] + popped == queue[..|popped| + 1]
    ensures popped == queue[1..] ==> [queue[0]] + popped == queue
  {
  }

  /** Without mixed inodes, deleting only the oldest snapshots never gives back more than deleting all. */
  lemma SnapshotBytesPrefix(ss: seq<Snapshot>, k: nat, fs: Inodes)
    requires k <= |ss| && NoMixedInodes(Entries(ss))
    ensures SnapshotBytes(ss[..k], fs) <= SnapshotBytes(ss, fs)
  {
    assert ss == ss[..k] + ss[k..];
    EntriesAppend(ss[..k], ss[k..]);
    TreeBytesAppend(Entries(ss[..k]), Entries(ss[k..]), fs);
  }

  /**
   * Nothing keeps the link source out of eviction: when the older snapshots
   * together cannot make room, the newest one, which the listing offers as
   * the link source, is popped as well.
   */
  lemma EvictionMayRemoveLinkSource(accounted: int, estimate: nat, diskSize: int, queue: seq<Snapshot>, fs: Inodes, base: nat)
    requires |queue| > 0 && NoMixedInodes(Entries(queue))
    requires accounted - SnapshotBytes(queue[..|queue| - 1], fs) + estimate > diskSize
    ensures Evict(accounted, estimate, diskSize, queue, fs, Never, base).popped == queue
  {
    var r := Evict(accounted, estimate, diskSize, queue, fs, Never, base);
    EvictReclaims(accounted, estimate, diskSize, queue, fs, Never, base);
    var older := queue[..|queue| - 1];
    if |r.popped| < |queue| {
      PrefixOfPrefix(queue, |queue| - 1, |r.popped|);
      NoMixedPrefix(queue, |queue| - 1);
      NoMixedPrefix(older, |r.popped|);
      SnapshotBytesPrefix(older, |r.popped|, fs);
    }
  }

  /**
   * Two snapshots holding the same 100-byte file: the first pop only drops
   * its link count to 1, the second gives the 100 bytes back, and the backup
   * then fits.
   */
  lemma SharedFileFreedBySecondPop(s1: Snapshot, s2: Snapshot, base: nat)
    requires s1.children == [File("f", 0)] && s2.children == [File("f", 0)]
    ensures var r := Evict(100, 100, 150, [s1, s2], [Inode(100, 2)], Never, base);
            r.status == Fits && r.popped == [s1, s2] && r.accounted == 0
  {
    var fs := [Inode(100, 2)];
    var queue := [s1, s2];
    var f := File("f", 0);
    assert [f][1..] == [];
    assert Entries(queue[1..][1..]) == [];
    assert Entries(queue[1..]) == [f];
    assert Entries(queue) == [f, f];
    assert [f, f][1..] == [f];
    assert queue[..1] == [s1];
    assert Entries([s1][1..]) == [];
    assert Entries([s1]) == [f];
    assert Refs([f], 0, false) == 1 && Refs([f], 0, true) == 0;
    assert Refs([f, f], 0, false) == 2 && Refs([f, f], 0, true) == 0;
    assert forall i :: i != 0 ==> Refs([f], i, false) == 0 && Refs([f], i, true) == 0;
    assert forall i :: Refs([f], i, true) == 0;
    assert forall i :: Refs([f, f], i, true) == 0;
    assert TreeBytesBelow([f], fs, 0) == 0 && TreeBytesBelow([f, f], fs, 0) == 0;
    assert TreeBytesBelow([f], fs, 1) == 0;
    assert TreeBytesBelow([f, f], fs, 1) == 100;
    assert SnapshotBytes([s1], fs) == 0;
    assert SnapshotBytes(queue, fs) == 100;
    EvictionMayRemoveLinkSource(100, 100, 150, queue, fs, base);
    EvictReclaims(100, 100, 150, queue, fs, Never, base);
  }

  /**
   * localRemove as written: once the walk of a popped snapshot finishes,
   * `os.rmdir(dirPath)` names a variable that does not exist in that scope.
   */
  function EvictAsWritten(accounted: int, estimate: nat, diskSize: int, queue: seq<Snapshot>, fs: Inodes, c: CancelPoint, base: nat): (r: Eviction)
    ensures r.status == UndefinedDirPath ==> |r.popped| == 1
    // uncancelled, the first snapshot that has to go is also the last: the loop raises after its walk
    ensures c == Never && accounted + estimate > diskSize && |queue| > 0 ==>
              r.status == UndefinedDirPath && r.popped == [queue[0]]
  {
    if accounted + estimate <= diskSize then Eviction(Fits, accounted, [], fs, base)
    else if |queue| == 0 then Eviction(NothingToPop, accounted, [], fs, base)
    else
      var ops := WalkOps([], queue[0].children);
      var j := StopIndex(c, base, |ops|);
      var left := accounted - Freed(fs, ops[..j]);
      var fs' := After(fs, ops[..j]);
      if j < |ops| then Eviction(EvictCancelled, left, [queue[0]], fs', base + j + 1)
      else Eviction(UndefinedDirPath, left, [queue[0]], fs', base + |ops|)
  }
}

=== FILE: file_tree.dfy ===
/**
 * Directory trees as `os.walk`/`os.lstat` see them, and the hard-link-aware
 * deletion of backup_rm.backup_rm: a bottom-up walk that removes every entry
 * and counts the size of a file when `lstat` finds it has exactly one link
 * left. Link counts live in an inode table that every removal updates, so
 * removing one link of a file can make a later `lstat` of another link see 1.
 */
module FileTree {

  /** Inode numbers: positions in the inode table. */
  type Ino = nat

  /** What `os.lstat` reports about an inode: its size and its number of hard links. */
  datatype Inode = Inode(size: nat, nlink: nat)

  /**
   * The inode table of the backup disk. With `--link-dest`, unchanged files
   * of consecutive snapshots are links to one inode. An inode number past the
   * end of the table names nothing.
   */
  type Inodes = seq<Inode>

  /** One directory entry. */
  datatype Node =
    | File(name: string, ino: Ino)               // anything that is not a directory or a symbolic link
    | Link(name: string, ino: Ino, toDir: bool)  // a symbolic link; `ino` is the link's own inode, which lstat describes
    | Dir(name: string, children: seq<Node>)     // a real directory (not a link)

  /** Path components below the directory being removed; `[]` is that directory. */
  type Path = seq<string>

  /** The file-system operations the walk performs. */
  datatype Op =
    | RemoveFile(path: Path, ino: Ino)  // `os.lstat` then `os.remove` on an entry of `files`
    | Rmdir(path: Path)                 // `os.rmdir` that succeeds
    | Unlink(path: Path, ino: Ino)      // `os.rmdir` rejected (a link to a directory), then `os.remove`

  /** `os.walk` puts an entry into `files`: everything `is_dir()` rejects, following links. */
  predicate InFiles(n: Node)
  {
    n.File? || (n.Link? && !n.toDir)
  }

  /** A directory listing never names two entries alike, at any depth. */
  ghost predicate WellFormed(cs: seq<Node>)
  {
    && (forall i, j :: 0 <= i < j < |cs| ==> cs[i].name != cs[j].name)
    && (forall i :: 0 <= i < |cs| && cs[i].Dir? ==> WellFormed(cs[i].children))
  }

  // ---------------------------------------------------------------------------
  // The walk as the source performs it
  // ---------------------------------------------------------------------------

  /**
   * `os.walk(p, topdown=False)` below directory `p` with entries `cs`, and the
   * loop body run on each tuple: the walks of the real subdirectories first,
   * then the files of `p`, then its `dirs`. Links to directories are listed
   * in `dirs` but never walked into.
   */
  function WalkOps(p: Path, cs: seq<Node>): seq<Op>
    decreases cs, 1
  {
    SubWalks(p, cs) + FileOps(p, cs) + DirOps(p, cs)
  }

  function SubWalks(p: Path, cs: seq<Node>): seq<Op>
    decreases cs, 0
  {
    if |cs| == 0 then []
    else
      assert cs[0] in cs;
      (if cs[0].Dir? then WalkOps(p + [cs[0].name], cs[0].children) else []) + SubWalks(p, cs[1..])
  }

  /** `for file in files`: lstat and remove each. */
  function FileOps(p: Path, cs: seq<Node>): seq<Op>
  {
    if |cs| == 0 then []
    else
      (if InFiles(cs[0]) then [RemoveFile(p + [cs[0].name], cs[0].ino)] else [])
      + FileOps(p, cs[1..])
  }

  /** `for dir in dirs`: `rmdir`, and `remove` when `rmdir` rejects a link. */
  function DirOps(p: Path, cs: seq<Node>): seq<Op>
  {
    if |cs| == 0 then []
    else
      (if cs[0].Dir? then [Rmdir(p + [cs[0].name])]
       else if cs[0].Link? && cs[0].toDir then [Unlink(p + [cs[0].name], cs[0].ino)]
       else [])
      + DirOps(p, cs[1..])
  }

  // ---------------------------------------------------------------------------
  // Performing the operations on the inode table
  // ---------------------------------------------------------------------------

  /** An inode after `k` of its links were removed; the count stops at 0. */
  function Lowered(n: Inode, k: nat): Inode
  {
    n.(nlink := if n.nlink >= k then n.nlink - k else 0)
  }

  /** `os.remove` of one link to inode `i`. */
  function DropLink(fs: Inodes, i: Ino): (r: Inodes)
    ensures |r| == |fs|
  {
    if i < |fs| then fs[i := Lowered(fs[i], 1)] else fs
  }

  /** The inode table after one operation. */
  function Apply(fs: Inodes, o: Op): (r: Inodes)
    ensures |r| == |fs|
  {
    if o.Rmdir? then fs else DropLink(fs, o.ino)
  }

  /** Bytes one operation adds to `fSize`: `lstat` sees a single link. */
  function OpBytes(fs: Inodes, o: Op): nat
  {
    if o.RemoveFile? && o.ino < |fs| && fs[o.ino].nlink == 1 then fs[o.ino].size else 0
  }

  /** `fSize` after performing `ops`, starting from the inode table `fs`. */
  function Freed(fs: Inodes, ops: seq<Op>): nat
    decreases |ops|
  {
    if |ops| == 0 then 0 else OpBytes(fs, ops[0]) + Freed(Apply(fs, ops[0]), ops[1..])
  }

  /** The inode table after performing `ops`. */
  function After(fs: Inodes, ops: seq<Op>): (r: Inodes)
    ensures |r| == |fs|
    decreases |ops|
  {
    if |ops| == 0 then fs else After(Apply(fs, ops[0]), ops[1..])
  }

  /** Performing `a` then `b` is performing `a + b`. */
  lemma {:induction false} FreedAppend(fs: Inodes, a: seq<Op>, b: seq<Op>)
    ensures Freed(fs, a + b) == Freed(fs, a) + Freed(After(fs, a), b)
    ensures After(fs, a + b) == After(After(fs, a), b)
    decreases |a|
  {
    if |a| == 0 {
      assert a + b == b;
    } else {
      assert (a + b)[0] == a[0];
      assert (a + b)[1..] == a[1..] + b;
      FreedAppend(Apply(fs, a[0]), a[1..], b);
    }
  }

  // ---------------------------------------------------------------------------
  // Counting links
  // ---------------------------------------------------------------------------

  /** Operation `o` removes a link to inode `i`: through `os.remove` after `rmdir` failed (`dirLink`) or as a file. */
  predicate RemovesLink(o: Op, i: Ino, dirLink: bool)
  {
    if dirLink then o.Unlink? && o.ino == i else o.RemoveFile? && o.ino == i
  }

  /** Removals of links to inode `i` in `ops`, of one kind. */
  function Occ(ops: seq<Op>, i: Ino, dirLink: bool): nat
  {
    if |ops| == 0 then 0
    else (if RemovesLink(ops[0], i, dirLink) then 1 else 0) + Occ(ops[1..], i, dirLink)
  }

  /** Entry `n` links to inode `i`: as a link to a directory (`dirLink`) or as an entry of `files`. */
  predicate LinksTo(n: Node, i: Ino, dirLink: bool)
  {
    !n.Dir? && n.ino == i && (if dirLink then n.Link? && n.toDir else InFiles(n))
  }

  /** Links of one kind the entries `cs` hold to inode `i`, at any depth. */
  function Refs(cs: seq<Node>, i: Ino, dirLink: bool): nat
    decreases cs
  {
    if |cs| == 0 then 0
    else
      assert cs[0] in cs;
      (if LinksTo(cs[0], i, dirLink) then 1 else 0)
      + (if cs[0].Dir? then Refs(cs[0].children, i, dirLink) else 0)
      + Refs(cs[1..], i, dirLink)
  }

  /** All links the entries `cs` hold to inode `i`. */
  function AllRefs(cs: seq<Node>, i: Ino): nat
  {
    Refs(cs, i, false) + Refs(cs, i, true)
  }

  /**
   * No inode is reached both as an entry of `files` and as a symbolic link to
   * a directory (a hard-linked symbolic link would have to resolve to a
   * directory in one place and not in another).
   */
  ghost predicate NoMixedInodes(cs: seq<Node>)
  {
    forall i :: Refs(cs, i, false) == 0 || Refs(cs, i, true) == 0
  }

  // ---------------------------------------------------------------------------
  // Reference definitions
  // ---------------------------------------------------------------------------

  /** The inode table once every link the entries `cs` hold is removed. */
  function Unlinked(fs: Inodes, cs: seq<Node>): (r: Inodes)
    ensures |r| == |fs|
    ensures forall i {:trigger r[i]} :: 0 <= i < |fs| ==> r[i] == Lowered(fs[i], AllRefs(cs, i))
  {
    seq(|fs|, i requires 0 <= i < |fs| => Lowered(fs[i], AllRefs(cs, i)))
  }

  /**
   * Bytes the tree `cs` reclaims: the sizes of the inodes, among the first
   * `n` of the table, that still have links and whose every remaining link is
   * an entry of `files` in the tree.
   */
  function TreeBytesBelow(cs: seq<Node>, fs: Inodes, n: nat): nat
    requires n <= |fs|
  {
    if n == 0 then 0
    else
      var f := fs[n - 1];
      TreeBytesBelow(cs, fs, n - 1)
      + (if Refs(cs, n - 1, true) == 0 && 0 < f.nlink <= Refs(cs, n - 1, false) then f.size else 0)
  }

  function TreeBytes(cs: seq<Node>, fs: Inodes): nat
  {
    TreeBytesBelow(cs, fs, |fs|)
  }

  /** One operation per entry of the tree, listed in pre-order. */
  function EntryOps(p: Path, cs: seq<Node>): seq<Op>
    decreases cs
  {
    if |cs| == 0 then []
    else
      assert cs[0] in cs;
      [OpFor(p, cs[0])]
      + (if cs[0].Dir? then EntryOps(p + [cs[0].name], cs[0].children) else [])
      + EntryOps(p, cs[1..])
  }

  /** The operation the walk applies to the entry `n` of directory `p`. */
  function OpFor(p: Path, n: Node): Op
  {
    match n
    case File(name, ino) => RemoveFile(p + [name], ino)
    case Link(name, ino, toDir) =>
      if toDir then Unlink(p + [name], ino) else RemoveFile(p + [name], ino)
    case Dir(name, _) => Rmdir(p + [name])
  }

  // ---------------------------------------------------------------------------
  // What the walk removes
  // ---------------------------------------------------------------------------

  /** The walk touches every entry exactly once, with the operation its kind calls for. */
  lemma {:induction false} WalkPermutesEntries(p: Path, cs: seq<Node>)
    ensures multiset(WalkOps(p, cs)) == multiset(EntryOps(p, cs))
    decreases cs
  {
    if |cs| > 0 {
      assert cs[0] in cs;
      var n := cs[0];
      var w0 := if n.Dir? then WalkOps(p + [n.name], n.children) else [];
      var e0 := if n.Dir? then EntryOps(p + [n.name], n.children) else [];
      WalkOpsSplit(p, cs);
      WalkPermutesEntries(p, cs[1..]);
      if n.Dir? {
        WalkPermutesEntries(p + [n.name], n.children);
      }
      assert EntryOps(p, cs) == [OpFor(p, n)] + e0 + EntryOps(p, cs[1..]);
      SameMultiset(WalkOps(p, cs), EntryOps(p, cs), w0, e0, WalkOps(p, cs[1..]), EntryOps(p, cs[1..]), OpFor(p, n));
    }
  }

  lemma SameMultiset<T>(w: seq<T>, e: seq<T>, w0: seq<T>, e0: seq<T>, r: seq<T>, r': seq<T>, x: T)
    requires multiset(w) == multiset(w0) + multiset{x} + multiset(r)
    requires multiset(w0) == multiset(e0) && multiset(r) == multiset(r')
    requires e == [x] + e0 + r'
    ensures multiset(w) == multiset(e)
  {
  }

  /** The walk of `cs` is the walk below its first entry, that entry's operation, and the walk of the rest. */
  lemma WalkOpsSplit(p: Path, cs: seq<Node>)
    requires |cs| > 0
    ensures cs[0] in cs
    ensures multiset(WalkOps(p, cs))
            == multiset(if cs[0].Dir? then WalkOps(p + [cs[0].name], cs[0].children) else [])
               + multiset{OpFor(p, cs[0])} + multiset(WalkOps(p, cs[1..]))
  {
    var n := cs[0];
    var w0 := if n.Dir? then WalkOps(p + [n.name], n.children) else [];
    var f0 := if InFiles(n) then [RemoveFile(p + [n.name], n.ino)] else [];
    var d0 := if n.Dir? then [Rmdir(p + [n.name])]
              else if n.Link? && n.toDir then [Unlink(p + [n.name], n.ino)] else [];
    var s' := SubWalks(p, cs[1..]);
    var f' := FileOps(p, cs[1..]);
    var d' := DirOps(p, cs[1..]);
    assert WalkOps(p, cs) == (w0 + s') + (f0 + f') + (d0 + d');
    assert WalkOps(p, cs[1..]) == s' + f' + d';
    assert f0 + d0 == [OpFor(p, n)] by {
      match n
      case File(_, _) =>
      case Link(_, _, _) =>
      case Dir(_, _) =>
    }
    Regroup(w0, s', f0, f', d0, d');
  }

  /** Regrouping the three interleaved parts of a walk keeps its multiset. */
  lemma Regroup<T>(w0: seq<T>, s': seq<T>, f0: seq<T>, f': seq<T>, d0: seq<T>, d': seq<T>)
    ensures multiset((w0 + s') + (f0 + f') + (d0 + d')) == multiset(w0) + multiset(f0 + d0) + multiset(s' + f' + d')
  {
  }

  lemma {:induction false} OccAppend(a: seq<Op>, b: seq<Op>, i: Ino, dirLink: bool)
    ensures Occ(a + b, i, dirLink) == Occ(a, i, dirLink) + Occ(b, i, dirLink)
  {
    if |a| == 0 {
      assert a + b == b;
    } else {
      assert (a + b)[0] == a[0];
      assert (a + b)[1..] == a[1..] + b;
      OccAppend(a[1..], b, i, dirLink);
    }
  }

  /** The walk removes exactly the links the tree holds, of each kind. */
  lemma {:induction false} WalkRemovals(p: Path, cs: seq<Node>, i: Ino, dirLink: bool)
    ensures Occ(WalkOps(p, cs), i, dirLink) == Refs(cs, i, dirLink)
    decreases cs
  {
    if |cs| > 0 {
      assert cs[0] in cs;
      var n := cs[0];
      var w0 := if n.Dir? then WalkOps(p + [n.name], n.children) else [];
      var f0 := if InFiles(n) then [RemoveFile(p + [n.name], n.ino)] else [];
      var d0 := if n.Dir? then [Rmdir(p + [n.name])]
                else if n.Link? && n.toDir then [Unlink(p + [n.name], n.ino)] else [];
      var s' := SubWalks(p, cs[1..]);
      var f' := FileOps(p, cs[1..]);
      var d' := DirOps(p, cs[1..]);
      assert WalkOps(p, cs) == (w0 + s') + (f0 + f') + (d0 + d');
      assert WalkOps(p, cs[1..]) == s' + f' + d';
      OccAppend((w0 + s') + (f0 + f'), d0 + d', i, dirLink);
      OccAppend(w0 + s', f0 + f', i, dirLink);
      OccAppend(w0, s', i, dirLink);
      OccAppend(f0, f', i, dirLink);
      OccAppend(d0, d', i, dirLink);
      OccAppend(s' + f', d', i, dirLink);
      OccAppend(s', f', i, dirLink);
      assert Occ(f0, i, dirLink) + Occ(d0, i, dirLink) == (if LinksTo(n, i, dirLink) then 1 else 0);
      WalkRemovals(p, cs[1..], i, dirLink);
      if n.Dir? {
        WalkRemovals(p + [n.name], n.children, i, dirLink);
      }
    }
  }

  /** An operation in `ops` that removes a link to `i` is counted. */
  lemma {:induction false} OccPositive(ops: seq<Op>, k: nat, i: Ino, dirLink: bool)
    requires k < |ops| && RemovesLink(ops[k], i, dirLink)
    ensures Occ(ops, i, dirLink) > 0
  {
    if k > 0 {
      assert ops[1..][k - 1] == ops[k];
      OccPositive(ops[1..], k - 1, i, dirLink);
    }
  }

  /** Every link count drops by the number of removals of its links, down to 0. */
  lemma {:induction false} AfterLowers(fs: Inodes, ops: seq<Op>)
    ensures forall i :: 0 <= i < |fs| ==>
              After(fs, ops)[i] == Lowered(fs[i], Occ(ops, i, false) + Occ(ops, i, true))
    decreases |ops|
  {
    if |ops| > 0 {
      var fs1 := Apply(fs, ops[0]);
      AfterLowers(fs1, ops[1..]);
      forall i | 0 <= i < |fs|
        ensures After(fs, ops)[i] == Lowered(fs[i], Occ(ops, i, false) + Occ(ops, i, true))
      {
        var k := if RemovesLink(ops[0], i, false) || RemovesLink(ops[0], i, true) then 1 else 0;
        assert fs1[i] == Lowered(fs[i], k);
      }
    }
  }

  // ---------------------------------------------------------------------------
  // Conservation of bytes
  // ---------------------------------------------------------------------------

  /**
   * Bytes held by the inodes among the first `n` of the table that still have
   * links and that no symbolic link to a directory in `cs` reaches.
   */
  function HeldFiles(fs: Inodes, cs: seq<Node>, n: nat): nat
    requires n <= |fs|
  {
    if n == 0 then 0
    else HeldFiles(fs, cs, n - 1) + (if Refs(cs, n - 1, true) == 0 && fs[n - 1].nlink > 0 then fs[n - 1].size else 0)
  }

  lemma {:induction false} HeldDrop(fs: Inodes, cs: seq<Node>, i: Ino, n: nat)
    requires n <= |fs|
    ensures HeldFiles(fs, cs, n)
            == HeldFiles(DropLink(fs, i), cs, n)
               + (if i < n && Refs(cs, i, true) == 0 && fs[i].nlink == 1 then fs[i].size else 0)
  {
    if n > 0 {
      HeldDrop(fs, cs, i, n - 1);
    }
  }

  /**
   * Removing links never adds held bytes: what the removals count plus what
   * stays held is at most what was held, and exactly that when every removal
   * is of the kind `cs` links its inode with.
   */
  lemma {:induction false} Conservation(fs: Inodes, ops: seq<Op>, cs: seq<Node>)
    requires forall k :: 0 <= k < |ops| && ops[k].RemoveFile? ==> Refs(cs, ops[k].ino, true) == 0
    ensures Freed(fs, ops) + HeldFiles(After(fs, ops), cs, |fs|) <= HeldFiles(fs, cs, |fs|)
    ensures (forall k :: 0 <= k < |ops| && ops[k].Unlink? ==> Refs(cs, ops[k].ino, true) > 0) ==>
              Freed(fs, ops) + HeldFiles(After(fs, ops), cs, |fs|) == HeldFiles(fs, cs, |fs|)
    decreases |ops|
  {
    if |ops| > 0 {
      var o := ops[0];
      var fs1 := Apply(fs, o);
      if !o.Rmdir? {
        HeldDrop(fs, cs, o.ino, |fs|);
      }
      forall k | 0 <= k < |ops[1..]| && ops[1..][k].RemoveFile?
        ensures Refs(cs, ops[1..][k].ino, true) == 0
      {
        assert ops[1..][k] == ops[k + 1];
      }
      Conservation(fs1, ops[1..], cs);
      if forall k :: 0 <= k < |ops| && ops[k].Unlink? ==> Refs(cs, ops[k].ino, true) > 0 {
        forall k | 0 <= k < |ops[1..]| && ops[1..][k].Unlink?
          ensures Refs(cs, ops[1..][k].ino, true) > 0
        {
          assert ops[1..][k] == ops[k + 1];
        }
      }
    }
  }

  /** Removing the tree's links releases its reclaimable bytes from the held bytes. */
  lemma {:induction false} HeldUnlinked(fs: Inodes, cs: seq<Node>, n: nat)
    requires n <= |fs|
    ensures HeldFiles(fs, cs, n) == HeldFiles(Unlinked(fs, cs), cs, n) + TreeBytesBelow(cs, fs, n)
  {
    if n > 0 {
      HeldUnlinked(fs, cs, n - 1);
    }
  }

  /**
   * Bytes of the inodes, among the first `n`, whose every remaining link is
   * in the tree, whatever kind of entry reaches them.
   */
  function ReleasedBelow(cs: seq<Node>, fs: Inodes, n: nat): nat
    requires n <= |fs|
  {
    if n == 0 then 0
    else
      var f := fs[n - 1];
      ReleasedBelow(cs, fs, n - 1) + (if 0 < f.nlink <= AllRefs(cs, n - 1) then f.size else 0)
  }

  lemma {:induction false} HeldAllUnlinked(fs: Inodes, cs: seq<Node>, n: nat)
    requires n <= |fs|
    ensures HeldFiles(fs, [], n) == HeldFiles(Unlinked(fs, cs), [], n) + ReleasedBelow(cs, fs, n)
  {
    if n > 0 {
      HeldAllUnlinked(fs, cs, n - 1);
    }
  }

  // ---------------------------------------------------------------------------
  // The bytes the walk frees
  // ---------------------------------------------------------------------------

  /** Without mixed inodes, the walk removes links only in the way the tree holds them. */
  lemma WalkKindsAgree(p: Path, cs: seq<Node>)
    requires NoMixedInodes(cs)
    ensures forall k :: 0 <= k < |WalkOps(p, cs)| && WalkOps(p, cs)[k].RemoveFile? ==>
              Refs(cs, WalkOps(p, cs)[k].ino, true) == 0
    ensures forall k :: 0 <= k < |WalkOps(p, cs)| && WalkOps(p, cs)[k].Unlink? ==>
              Refs(cs, WalkOps(p, cs)[k].ino, true) > 0
  {
    var ops := WalkOps(p, cs);
    forall k | 0 <= k < |ops| && !ops[k].Rmdir?
      ensures ops[k].RemoveFile? ==> Refs(cs, ops[k].ino, true) == 0
      ensures ops[k].Unlink? ==> Refs(cs, ops[k].ino, true) > 0
    {
      var i := ops[k].ino;
      var d := ops[k].Unlink?;
      OccPositive(ops, k, i, d);
      WalkRemovals(p, cs, i, d);
    }
  }

  /**
   * The walk leaves every inode with its links in the tree removed, and, when
   * no inode is reached both ways, counts exactly the tree's reclaimable bytes.
   */
  lemma WalkFreesTreeBytes(p: Path, cs: seq<Node>, fs: Inodes)
    ensures After(fs, WalkOps(p, cs)) == Unlinked(fs, cs)
    ensures NoMixedInodes(cs) ==> Freed(fs, WalkOps(p, cs)) == TreeBytes(cs, fs)
  {
    var ops := WalkOps(p, cs);
    AfterLowers(fs, ops);
    forall i | 0 <= i < |fs| ensures After(fs, ops)[i] == Unlinked(fs, cs)[i] {
      WalkRemovals(p, cs, i, false);
      WalkRemovals(p, cs, i, true);
    }
    if NoMixedInodes(cs) {
      WalkKindsAgree(p, cs);
      Conservation(fs, ops, cs);
      HeldUnlinked(fs, cs, |fs|);
    }
  }

  /** Whatever the tree holds, the walk counts at most the bytes whose last links are in it. */
  lemma WalkFreesAtMost(p: Path, cs: seq<Node>, fs: Inodes)
    ensures Freed(fs, WalkOps(p, cs)) <= ReleasedBelow(cs, fs, |fs|)
  {
    var ops := WalkOps(p, cs);
    WalkFreesTreeBytes(p, cs, fs);
    Conservation(fs, ops, []);
    HeldAllUnlinked(fs, cs, |fs|);
  }

  // ---------------------------------------------------------------------------
  // backup_rm
  // ---------------------------------------------------------------------------

  datatype Removal = Removal(ops: seq<Op>, freed: nat, inodes: Inodes)

  /**
   * backup_rm(dirPath) on a directory whose entries are `cs`, on a disk with
   * inode table `fs`: the operations performed, ending with
   * `os.rmdir(dirPath)`, the size returned and the inode table left.
   */
  function BackupRm(cs: seq<Node>, fs: Inodes): (r: Removal)
    ensures r.inodes == Unlinked(fs, cs)
    ensures NoMixedInodes(cs) ==> r.freed == TreeBytes(cs, fs)
    ensures r.freed <= ReleasedBelow(cs, fs, |fs|)
    ensures multiset(r.ops) == multiset(EntryOps([], cs)) + multiset{Rmdir([])}
    ensures |r.ops| > 0 && r.ops[|r.ops| - 1] == Rmdir([])
  {
    var ops := WalkOps([], cs) + [Rmdir([])];
    FinalRmdir(cs, fs);
    Removal(ops, Freed(fs, ops), After(fs, ops))
  }

  /** The closing `os.rmdir(dirPath)` frees nothing and leaves the table alone. */
  lemma FinalRmdir(cs: seq<Node>, fs: Inodes)
    ensures Freed(fs, WalkOps([], cs) + [Rmdir([])]) == Freed(fs, WalkOps([], cs))
    ensures After(fs, WalkOps([], cs) + [Rmdir([])]) == Unlinked(fs, cs)
    ensures NoMixedInodes(cs) ==> Freed(fs, WalkOps([], cs)) == TreeBytes(cs, fs)
    ensures Freed(fs, WalkOps([], cs)) <= ReleasedBelow(cs, fs, |fs|)
    ensures multiset(WalkOps([], cs) + [Rmdir([])]) == multiset(EntryOps([], cs)) + multiset{Rmdir([])}
  {
    var walk := WalkOps([], cs);
    WalkPermutesEntries([], cs);
    WalkFreesTreeBytes([], cs, fs);
    WalkFreesAtMost([], cs, fs);
    FreedAppend(fs, walk, [Rmdir([])]);
    var end := After(fs, walk);
    assert Freed(end, [Rmdir([])]) == 0 by {
      assert [Rmdir([])][1..] == [];
    }
    assert After(end, [Rmdir([])]) == end by {
      assert [Rmdir([])][1..] == [];
    }
  }

  /** Two links to one inode in the directory: the second `lstat` sees one link, so the size is counted once. */
  lemma HardLinkedPairCountedOnce(a: string, b: string, i: Ino, fs: Inodes)
    requires i < |fs| && fs[i].nlink == 2
    ensures BackupRm([File(a, i), File(b, i)], fs).freed == fs[i].size
  {
    PairWalk(a, b, i);
    PairFreed(fs, i, [a], [b]);
    FinalRmdir([File(a, i), File(b, i)], fs);
  }

  lemma PairWalk(a: string, b: string, i: Ino)
    ensures WalkOps([], [File(a, i), File(b, i)]) == [RemoveFile([a], i), RemoveFile([b], i)]
  {
    var cs := [File(a, i), File(b, i)];
    var p: Path := [];
    assert p + [a] == [a] && p + [b] == [b];
    assert cs[1..][1..] == [];
    assert FileOps(p, cs[1..][1..]) == [] && SubWalks(p, cs[1..][1..]) == [] && DirOps(p, cs[1..][1..]) == [];
    assert FileOps(p, cs[1..]) == [RemoveFile([b], i)];
    assert SubWalks(p, cs[1..]) == [] && DirOps(p, cs[1..]) == [];
    assert FileOps(p, cs) == [RemoveFile([a], i), RemoveFile([b], i)];
    assert SubWalks(p, cs) == [] && DirOps(p, cs) == [];
  }

  lemma PairFreed(fs: Inodes, i: Ino, pa: Path, pb: Path)
    requires i < |fs| && fs[i].nlink == 2
    ensures Freed(fs, [RemoveFile(pa, i), RemoveFile(pb, i)]) == fs[i].size
  {
    var ops := [RemoveFile(pa, i), RemoveFile(pb, i)];
    var fs1 := Apply(fs, ops[0]);
    assert OpBytes(fs, ops[0]) == 0;
    assert fs1[i].nlink == 1;
    var rest := ops[1..];
    assert rest == [RemoveFile(pb, i)] && rest[1..] == [];
    assert Freed(Apply(fs1, rest[0]), rest[1..]) == 0;
    assert Freed(fs1, rest) == fs[i].size;
  }

  /** A tree each of whose inodes keeps a link outside it frees nothing. */
  lemma SharedFilesFreeNothing(cs: seq<Node>, fs: Inodes)
    requires forall i :: 0 <= i < |fs| && AllRefs(cs, i) > 0 ==> fs[i].nlink > AllRefs(cs, i)
    ensures BackupRm(cs, fs).freed == 0
  {
    ReleasedNone(cs, fs, |fs|);
  }

  lemma {:induction false} ReleasedNone(cs: seq<Node>, fs: Inodes, n: nat)
    requires n <= |fs|
    requires forall i :: 0 <= i < |fs| && AllRefs(cs, i) > 0 ==> fs[i].nlink > AllRefs(cs, i)
    ensures ReleasedBelow(cs, fs, n) == 0
  {
    if n > 0 {
      ReleasedNone(cs, fs, n - 1);
    }
  }

  // ---------------------------------------------------------------------------
  // Several trees
  // ---------------------------------------------------------------------------

  lemma {:induction false} RefsAppend(a: seq<Node>, b: seq<Node>, i: Ino, dirLink: bool)
    ensures Refs(a + b, i, dirLink) == Refs(a, i, dirLink) + Refs(b, i, dirLink)
  {
    if |a| == 0 {
      assert a + b == b;
    } else {
      assert (a + b)[0] == a[0];
      assert (a + b)[1..] == a[1..] + b;
      RefsAppend(a[1..], b, i, dirLink);
    }
  }

  lemma NoMixedAppend(a: seq<Node>, b: seq<Node>)
    requires NoMixedInodes(a + b)
    ensures NoMixedInodes(a) && NoMixedInodes(b)
  {
    forall i ensures Refs(a, i, false) == 0 || Refs(a, i, true) == 0 {
      RefsAppend(a, b, i, false);
      RefsAppend(a, b, i, true);
    }
    forall i ensures Refs(b, i, false) == 0 || Refs(b, i, true) == 0 {
      RefsAppend(a, b, i, false);
      RefsAppend(a, b, i, true);
    }
  }

  /** Removing the links of `a`, then those of `b`, removes the links of `a + b`. */
  lemma UnlinkedAppend(fs: Inodes, a: seq<Node>, b: seq<Node>)
    ensures Unlinked(Unlinked(fs, a), b) == Unlinked(fs, a + b)
  {
    forall i | 0 <= i < |fs| ensures Unlinked(Unlinked(fs, a), b)[i] == Unlinked(fs, a + b)[i] {
      RefsAppend(a, b, i, false);
      RefsAppend(a, b, i, true);
    }
  }

  /**
   * Deleting `a` and then `b` reclaims what deleting `a + b` reclaims: `b`
   * reclaims, after `a`, the inodes whose last links `a` left to it.
   */
  lemma {:induction false} TreeBytesAppend(a: seq<Node>, b: seq<Node>, fs: Inodes)
    requires NoMixedInodes(a + b)
    ensures TreeBytes(a + b, fs) == TreeBytes(a, fs) + TreeBytes(b, Unlinked(fs, a))
  {
    TreeBytesAppendBelow(a, b, fs, |fs|);
  }

  lemma {:induction false} TreeBytesAppendBelow(a: seq<Node>, b: seq<Node>, fs: Inodes, n: nat)
    requires n <= |fs| && NoMixedInodes(a + b)
    ensures TreeBytesBelow(a + b, fs, n) == TreeBytesBelow(a, fs, n) + TreeBytesBelow(b, Unlinked(fs, a), n)
  {
    if n > 0 {
      TreeBytesAppendBelow(a, b, fs, n - 1);
      var i := n - 1;
      RefsAppend(a, b, i, false);
      RefsAppend(a, b, i, true);
      assert Refs(a + b, i, false) == 0 || Refs(a + b, i, true) == 0;
    }
  }

  /** Trees that share no inode reclaim the sum of what each reclaims alone. */
  lemma {:induction false} TreeBytesDisjoint(a: seq<Node>, b: seq<Node>, fs: Inodes)
    requires forall i :: AllRefs(a, i) == 0 || AllRefs(b, i) == 0
    ensures TreeBytes(a + b, fs) == TreeBytes(a, fs) + TreeBytes(b, fs)
  {
    TreeBytesDisjointBelow(a, b, fs, |fs|);
  }

  lemma {:induction false} TreeBytesDisjointBelow(a: seq<Node>, b: seq<Node>, fs: Inodes, n: nat)
    requires n <= |fs|
    requires forall i :: AllRefs(a, i) == 0 || AllRefs(b, i) == 0
    ensures TreeBytesBelow(a + b, fs, n) == TreeBytesBelow(a, fs, n) + TreeBytesBelow(b, fs, n)
  {
    if n > 0 {
      TreeBytesDisjointBelow(a, b, fs, n - 1);
      var i := n - 1;
      RefsAppend(a, b, i, false);
      RefsAppend(a, b, i, true);
      assert AllRefs(a, i) == 0 || AllRefs(b, i) == 0;
    }
  }

  /** An empty list of entries reclaims nothing. */
  lemma {:induction false} TreeBytesNone(fs: Inodes, n: nat)
    requires n <= |fs|
    ensures TreeBytesBelow([], fs, n) == 0
  {
    if n > 0 {
      TreeBytesNone(fs, n - 1);
    }
  }

  // ---------------------------------------------------------------------------
  // Bottom-up order
  // ---------------------------------------------------------------------------

  predicate StrictPrefix(q: Path, p: Path)
  {
    |q| < |p| && p[..|q|] == q
  }

  /** Every directory is removed after everything inside it. */
  ghost predicate BottomUp(ops: seq<Op>)
  {
    forall i, j :: 0 <= i < |ops| && 0 <= j < |ops| && ops[j].Rmdir? && StrictPrefix(ops[j].path, ops[i].path) ==> i < j
  }

  function Names(cs: seq<Node>): set<string>
  {
    set i | 0 <= i < |cs| :: cs[i].name
  }

  /** Every operation in `ops` is on a path at least `extra` components below `p`, through an entry named in `names`. */
  ghost predicate Below(ops: seq<Op>, p: Path, extra: nat, names: set<string>)
    requires extra >= 1
  {
    forall k :: 0 <= k < |ops| ==>
      |ops[k].path| >= |p| + extra && ops[k].path[..|p|] == p && ops[k].path[|p|] in names
  }

  lemma {:induction false} FlatBelow(p: Path, cs: seq<Node>)
    ensures Below(FileOps(p, cs), p, 1, Names(cs))
    ensures Below(DirOps(p, cs), p, 1, Names(cs))
    ensures forall k :: 0 <= k < |FileOps(p, cs)| ==> |FileOps(p, cs)[k].path| == |p| + 1
    ensures forall k :: 0 <= k < |DirOps(p, cs)| ==> |DirOps(p, cs)[k].path| == |p| + 1
  {
    if |cs| > 0 {
      FlatBelow(p, cs[1..]);
      assert Names(cs[1..]) <= Names(cs) by {
        forall x | x in Names(cs[1..]) ensures x in Names(cs) {
          var i :| 0 <= i < |cs[1..]| && cs[1..][i].name == x;
          assert cs[i + 1].name == x;
        }
      }
      assert cs[0].name in Names(cs);
      assert (p + [cs[0].name])[..|p|] == p;
    }
  }

  lemma {:induction false} WalkBelow(p: Path, cs: seq<Node>)
    ensures Below(WalkOps(p, cs), p, 1, Names(cs))
    decreases cs, 1
  {
    SubBelow(p, cs);
    FlatBelow(p, cs);
  }

  lemma {:induction false} SubBelow(p: Path, cs: seq<Node>)
    ensures Below(SubWalks(p, cs), p, 2, Names(cs))
    decreases cs, 0
  {
    if |cs| > 0 {
      assert cs[0] in cs;
      SubBelow(p, cs[1..]);
      assert Names(cs[1..]) <= Names(cs) by {
        forall x | x in Names(cs[1..]) ensures x in Names(cs) {
          var i :| 0 <= i < |cs[1..]| && cs[1..][i].name == x;
          assert cs[i + 1].name == x;
        }
      }
      assert cs[0].name in Names(cs);
      if cs[0].Dir? {
        var q := p + [cs[0].name];
        var w0 := WalkOps(q, cs[0].children);
        WalkBelow(q, cs[0].children);
        forall k | 0 <= k < |w0|
          ensures w0[k].path[..|p|] == p && w0[k].path[|p|] == cs[0].name
        {
          assert w0[k].path[..|q|] == q;
          assert w0[k].path[..|p|] == w0[k].path[..|q|][..|p|];
        }
      }
    }
  }

  /** Two bottom-up runs stay bottom-up when nothing removed by the first contains anything the second touches. */
  lemma BottomUpAppend(a: seq<Op>, b: seq<Op>)
    requires BottomUp(a) && BottomUp(b)
    requires forall j, i :: 0 <= j < |a| && 0 <= i < |b| && a[j].Rmdir? ==> !StrictPrefix(a[j].path, b[i].path)
    ensures BottomUp(a + b)
  {
    var ab := a + b;
    forall i, j | 0 <= i < |ab| && 0 <= j < |ab|
      ensures ab[j].Rmdir? && StrictPrefix(ab[j].path, ab[i].path) ==> i < j
    {
      if j < |a| && i >= |a| {
        assert ab[i] == b[i - |a|] && ab[j] == a[j];
      } else if j < |a| {
        assert ab[i] == a[i] && ab[j] == a[j];
      } else if i >= |a| {
        assert ab[i] == b[i - |a|] && ab[j] == b[j - |a|];
      }
    }
  }

  lemma {:induction false} FlatBottomUp(p: Path, cs: seq<Node>)
    ensures BottomUp(FileOps(p, cs)) && BottomUp(DirOps(p, cs))
  {
    FlatBelow(p, cs);
  }

  lemma {:induction false} WalkBottomUp(p: Path, cs: seq<Node>)
    requires WellFormed(cs)
    ensures BottomUp(WalkOps(p, cs))
    decreases cs, 1
  {
    var s, f, d := SubWalks(p, cs), FileOps(p, cs), DirOps(p, cs);
    SubBottomUp(p, cs);
    SubBelow(p, cs);
    FlatBottomUp(p, cs);
    FlatBelow(p, cs);
    BottomUpAppend(s, f);
    forall j, i | 0 <= j < |s + f| && 0 <= i < |d| && (s + f)[j].Rmdir?
      ensures !StrictPrefix((s + f)[j].path, d[i].path)
    {
      if j >= |s| {
        assert (s + f)[j] == f[j - |s|];
      }
    }
    BottomUpAppend(s + f, d);
  }

  lemma WellFormedTail(cs: seq<Node>)
    requires |cs| > 0 && WellFormed(cs)
    ensures WellFormed(cs[1..])
    ensures cs[0].Dir? ==> WellFormed(cs[0].children)
    ensures cs[0].name !in Names(cs[1..])
  {
    forall i | 0 <= i < |cs[1..]| && cs[1..][i].Dir? ensures WellFormed(cs[1..][i].children) {
      assert cs[1..][i] == cs[i + 1];
    }
    forall x | x in Names(cs[1..]) ensures x != cs[0].name {
      var i :| 0 <= i < |cs[1..]| && cs[1..][i].name == x;
      assert cs[i + 1].name == x;
    }
  }

  /** Nothing the walk of one subdirectory removes contains what the walks of its later siblings touch. */
  lemma SiblingWalksDisjoint(p: Path, cs: seq<Node>)
    requires |cs| > 0 && cs[0].Dir? && cs[0].name !in Names(cs[1..])
    ensures forall j, i :: 0 <= j < |WalkOps(p + [cs[0].name], cs[0].children)| && 0 <= i < |SubWalks(p, cs[1..])|
              && WalkOps(p + [cs[0].name], cs[0].children)[j].Rmdir?
              ==> !StrictPrefix(WalkOps(p + [cs[0].name], cs[0].children)[j].path, SubWalks(p, cs[1..])[i].path)
  {
    var q := p + [cs[0].name];
    var w0 := WalkOps(q, cs[0].children);
    var s' := SubWalks(p, cs[1..]);
    WalkBelow(q, cs[0].children);
    SubBelow(p, cs[1..]);
    forall j, i | 0 <= j < |w0| && 0 <= i < |s'|
      ensures w0[j].Rmdir? ==> !StrictPrefix(w0[j].path, s'[i].path)
    {
      assert w0[j].path[..|q|] == q;
      assert w0[j].path[|p|] == cs[0].name;
      assert s'[i].path[|p|] in Names(cs[1..]);
    }
  }

  lemma {:induction false} SubBottomUp(p: Path, cs: seq<Node>)
    requires WellFormed(cs)
    ensures BottomUp(SubWalks(p, cs))
    decreases cs, 0
  {
    if |cs| > 0 {
      assert cs[0] in cs;
      WellFormedTail(cs);
      SubBottomUp(p, cs[1..]);
      if cs[0].Dir? {
        WalkBottomUp(p + [cs[0].name], cs[0].children);
        SiblingWalksDisjoint(p, cs);
        BottomUpAppend(WalkOps(p + [cs[0].name], cs[0].children), SubWalks(p, cs[1..]));
      } else {
        assert SubWalks(p, cs) == SubWalks(p, cs[1..]);
      }
    }
  }

  /** backup_rm removes children before their parent directory and the top directory last. */
  lemma BackupRmIsBottomUp(cs: seq<Node>, fs: Inodes)
    requires WellFormed(cs)
    ensures BottomUp(BackupRm(cs, fs).ops)
  {
    var w := WalkOps([], cs);
    WalkBottomUp([], cs);
    BottomUpAppend(w, [Rmdir([])]);
  }
}

=== FILE: lsblk.dfy ===
/**
 * Disk lookups over the parsed output of `lsblk --fs --json`
 * (utils.get_UUID and utils.get_MountPoint): a list of block devices, each
 * with an optional list of child partitions.
 */
module Lsblk {
  import opened Wrappers
  import opened Strings

  /** A key of a partition's JSON object: missing, JSON `null`, or a string. */
  datatype Field = Absent | Null | Text(text: string)

  /** What `child[key]` yields when the key is present: Python's `None` for `null`. */
  function ValueOf(f: Field): Option<string>
    requires !f.Absent?
  {
    if f.Text? then Some(f.text) else None
  }

  /** A partition as `lsblk` describes it. */
  datatype Child = Child(uuid: Field, mountpoint: Field)

  /** A block device; `children` is `None` when the key is absent. */
  datatype Device = Device(children: Option<seq<Child>>)

  /** The children a lookup visits on a device: none unless the key is present and the list non-empty. */
  function VisitedChildren(d: Device): seq<Child>
  {
    if d.children.Some? && |d.children.value| > 0 then d.children.value else []
  }

  /** Every visited child, in device order then child order. */
  function AllChildren(ds: seq<Device>): seq<Child>
  {
    if |ds| == 0 then [] else AllChildren(ds[..|ds| - 1]) + VisitedChildren(ds[|ds| - 1])
  }

  /** The first position of `cs` that satisfies `p`. */
  function FirstIndex(cs: seq<Child>, p: Child -> bool): (r: Option<nat>)
    ensures r.Some? ==> r.value < |cs| && p(cs[r.value])
    ensures r.Some? ==> forall j :: 0 <= j < r.value ==> !p(cs[j])
    ensures r.None? ==> forall j :: 0 <= j < |cs| ==> !p(cs[j])
  {
    if |cs| == 0 then None
    else if p(cs[0]) then Some(0)
    else match FirstIndex(cs[1..], p)
      case None => None
      case Some(i) => Some(i + 1)
  }

  /** The child a lookup stops at, if any. */
  function FirstChild(ds: seq<Device>, p: Child -> bool): Option<Child>
  {
    match FirstIndex(AllChildren(ds), p)
    case Some(i) => Some(AllChildren(ds)[i])
    case None => None
  }

  /** The nested `for device … for child …` search both lookups perform. */
  method SearchChildren(ds: seq<Device>, p: Child -> bool) returns (r: Option<Child>)
    ensures r == FirstChild(ds, p)
  {
    var d := 0;
    while d < |ds|
      invariant 0 <= d <= |ds|
      invariant forall j :: 0 <= j < |AllChildren(ds[..d])| ==> !p(AllChildren(ds[..d])[j])
    {
      var device := ds[d];
      if device.children.Some? && |device.children.value| > 0 {
        var cs := device.children.value;
        var k := 0;
        while k < |cs|
          invariant 0 <= k <= |cs|
          invariant forall j :: 0 <= j < k ==> !p(cs[j])
        {
          if p(cs[k]) {
            FoundInDevice(ds, d, k, p);
            return Some(cs[k]);
          }
          k := k + 1;
        }
      }
      NothingInDevice(ds[..d], ds[d], p);
      assert ds[..d + 1] == ds[..d] + [ds[d]];
      d := d + 1;
    }
    assert ds[..d] == ds;
    return None;
  }

  /** A device with no matching child extends the unmatched prefix. */
  lemma NothingInDevice(pre: seq<Device>, dev: Device, p: Child -> bool)
    requires forall j :: 0 <= j < |AllChildren(pre)| ==> !p(AllChildren(pre)[j])
    requires forall j :: 0 <= j < |VisitedChildren(dev)| ==> !p(VisitedChildren(dev)[j])
    ensures forall j :: 0 <= j < |AllChildren(pre + [dev])| ==> !p(AllChildren(pre + [dev])[j])
  {
    var a, cs := AllChildren(pre), VisitedChildren(dev);
    assert (pre + [dev])[..|pre|] == pre;
    var all := a + cs;
    assert AllChildren(pre + [dev]) == all;
    forall j | 0 <= j < |all| ensures !p(all[j]) {
      if j < |a| { assert all[j] == a[j]; } else { assert all[j] == cs[j - |a|]; }
    }
  }

  /** The first matching child of the first device that has one is the first match overall. */
  lemma FoundInDevice(ds: seq<Device>, d: nat, k: nat, p: Child -> bool)
    requires d < |ds| && k < |VisitedChildren(ds[d])|
    requires forall j :: 0 <= j < |AllChildren(ds[..d])| ==> !p(AllChildren(ds[..d])[j])
    requires p(VisitedChildren(ds[d])[k]) && forall j :: 0 <= j < k ==> !p(VisitedChildren(ds[d])[j])
    ensures FirstChild(ds, p) == Some(VisitedChildren(ds[d])[k])
  {
    var pre, cs, post := AllChildren(ds[..d]), VisitedChildren(ds[d]), AllChildren(ds[d + 1..]);
    var all := AllChildren(ds);
    AllChildrenPrefix(ds, d);
    FirstOfAppend(pre, cs, k, p);
    FirstIndexAppend(pre + cs, post, p);
    assert FirstIndex(all, p) == Some(|pre| + k);
    assert all[|pre| + k] == cs[k];
  }

  lemma FirstOfAppend(pre: seq<Child>, cs: seq<Child>, k: nat, p: Child -> bool)
    requires forall j :: 0 <= j < |pre| ==> !p(pre[j])
    requires k < |cs| && p(cs[k]) && forall j :: 0 <= j < k ==> !p(cs[j])
    ensures FirstIndex(pre + cs, p) == Some(|pre| + k)
  {
    var s := pre + cs;
    forall j | 0 <= j < |pre| + k ensures !p(s[j]) {
      if j < |pre| { assert s[j] == pre[j]; } else { assert s[j] == cs[j - |pre|]; }
    }
    assert s[|pre| + k] == cs[k];
  }

  lemma FirstIndexAppend(a: seq<Child>, b: seq<Child>, p: Child -> bool)
    requires FirstIndex(a, p).Some?
    ensures FirstIndex(a + b, p) == FirstIndex(a, p)
  {
    var i := FirstIndex(a, p).value;
    forall j | 0 <= j < i ensures !p((a + b)[j]) {
      assert (a + b)[j] == a[j];
    }
    assert (a + b)[i] == a[i];
  }

  lemma {:induction false} AllChildrenAppend(a: seq<Device>, b: seq<Device>)
    ensures AllChildren(a + b) == AllChildren(a) + AllChildren(b)
    decreases |b|
  {
    if |b| == 0 {
      assert a + b == a;
    } else {
      var b' := b[..|b| - 1];
      assert (a + b)[..|a + b| - 1] == a + b';
      AllChildrenAppend(a, b');
    }
  }

  /** The children of the first `d + 1` devices start the children of all of them. */
  lemma AllChildrenPrefix(ds: seq<Device>, d: nat)
    requires d < |ds|
    ensures AllChildren(ds) == AllChildren(ds[..d]) + VisitedChildren(ds[d]) + AllChildren(ds[d + 1..])
  {
    var head := ds[..d + 1];
    assert ds == head + ds[d + 1..];
    AllChildrenAppend(head, ds[d + 1..]);
    assert head[..|head| - 1] == ds[..d];
    assert head[|head| - 1] == ds[d];
    assert AllChildren(head) == AllChildren(ds[..d]) + VisitedChildren(ds[d]);
  }

  // ---------------------------------------------------------------------------
  // get_UUID
  // ---------------------------------------------------------------------------

  datatype LookupError =
    | EmptyMountPoint   // `mnt_point[-1]` on an empty string raises IndexError
    | MissingKey        // `child['uuid']` or `child['mountpoint']` on a child without that key raises KeyError

  /** The query with one trailing `os.sep` removed. */
  function StripSep(mnt: string): (q: string)
    requires |mnt| > 0
    ensures |q| == |mnt| - (if mnt[|mnt| - 1] == '/' then 1 else 0)
    ensures q == mnt[..|q|]
  {
    if mnt[|mnt| - 1] == '/' then mnt[..|mnt| - 1] else mnt
  }

  /** A child with a non-empty mount point containing the query. */
  predicate MountContains(c: Child, q: string)
  {
    c.mountpoint.Text? && |c.mountpoint.text| > 0 && Contains(c.mountpoint.text, q)
  }

  /**
   * What get_UUID does for a non-empty query: the uuid, possibly null, of
   * the first mounted child whose mount point contains it; a KeyError when
   * that child has no uuid key.
   */
  function UUIDOf(ds: seq<Device>, q: string): Result<Option<string>, LookupError>
  {
    match FirstChild(ds, c => MountContains(c, q))
    case Some(c) => if c.uuid.Absent? then Err(MissingKey) else Ok(ValueOf(c.uuid))
    case None => Ok(None)
  }

  /** utils.get_UUID. */
  method GetUUID(ds: seq<Device>, mnt: string) returns (r: Result<Option<string>, LookupError>)
    ensures r == Err(EmptyMountPoint) <==> |mnt| == 0
    ensures |mnt| > 0 ==> r == UUIDOf(ds, StripSep(mnt))
    ensures r.Ok? && r.value.Some? ==>
              exists i :: 0 <= i < |AllChildren(ds)| && MountContains(AllChildren(ds)[i], StripSep(mnt))
                          && AllChildren(ds)[i].uuid == Text(r.value.value)
    ensures r == Err(MissingKey) ==>
              exists i :: 0 <= i < |AllChildren(ds)| && MountContains(AllChildren(ds)[i], StripSep(mnt))
                          && AllChildren(ds)[i].uuid.Absent?
    ensures (forall i :: 0 <= i < |AllChildren(ds)| ==> !AllChildren(ds)[i].uuid.Absent?) ==> r != Err(MissingKey)
    ensures |mnt| > 0 ==>
              (forall i :: 0 <= i < |AllChildren(ds)| ==> !MountContains(AllChildren(ds)[i], StripSep(mnt))) ==>
                r == Ok(None)
  {
    if |mnt| == 0 {
      return Err(EmptyMountPoint);
    }
    var q := StripSep(mnt);
    var hit := SearchChildren(ds, c => MountContains(c, q));
    match hit {
      case Some(c) =>
        if c.uuid.Absent? {
          return Err(MissingKey);
        }
        return Ok(ValueOf(c.uuid));
      case None => return Ok(None);
    }
  }

  /**
   * The query need only occur somewhere in the mount point: a device whose
   * one child is mounted at any non-empty path containing the query yields
   * that child's uuid, so "/mnt/" finds a disk mounted at "/mnt/backup".
   */
  lemma UUIDMatchesBySubstring(uuid: string, mountpoint: string, mnt: string, i: nat)
    requires |mnt| > 0 && |mountpoint| > 0 && OccursAt(mountpoint, StripSep(mnt), i)
    ensures UUIDOf([Device(Some([Child(Text(uuid), Text(mountpoint))]))], StripSep(mnt)) == Ok(Some(uuid))
  {
    var c := Child(Text(uuid), Text(mountpoint));
    var ds := [Device(Some([c]))];
    OccursImpliesContains(mountpoint, StripSep(mnt), i);
    assert ds[..0] == [];
    assert AllChildren(ds) == [c];
  }

  // ---------------------------------------------------------------------------
  // get_MountPoint
  // ---------------------------------------------------------------------------

  predicate HasUUID(c: Child, uuid: string)
  {
    c.uuid == Text(uuid)
  }

  /**
   * What get_MountPoint does: the mount point, possibly null, of the first
   * child with that exact uuid; a KeyError when that child has no
   * mountpoint key.
   */
  function MountPointOf(ds: seq<Device>, uuid: string): Result<Option<string>, LookupError>
  {
    match FirstChild(ds, c => HasUUID(c, uuid))
    case Some(c) => if c.mountpoint.Absent? then Err(MissingKey) else Ok(ValueOf(c.mountpoint))
    case None => Ok(None)
  }

  /** utils.get_MountPoint. */
  method GetMountPoint(ds: seq<Device>, uuid: string) returns (r: Result<Option<string>, LookupError>)
    ensures r.Ok? && r.value.Some? ==>
              exists i :: 0 <= i < |AllChildren(ds)| && AllChildren(ds)[i].uuid == Text(uuid)
                          && AllChildren(ds)[i].mountpoint == Text(r.value.value)
    ensures r.Err? ==> r.error == MissingKey
    ensures r.Err? ==>
              exists i :: 0 <= i < |AllChildren(ds)| && AllChildren(ds)[i].uuid == Text(uuid)
                          && AllChildren(ds)[i].mountpoint.Absent?
    ensures (forall i :: 0 <= i < |AllChildren(ds)| ==> AllChildren(ds)[i].uuid != Text(uuid)) ==> r == Ok(None)
    ensures (forall i :: 0 <= i < |AllChildren(ds)| ==> !AllChildren(ds)[i].mountpoint.Absent?) ==> r.Ok?
    ensures r == MountPointOf(ds, uuid)
  {
    var hit := SearchChildren(ds, c => HasUUID(c, uuid));
    match hit {
      case Some(c) =>
        if c.mountpoint.Absent? {
          return Err(MissingKey);
        }
        return Ok(ValueOf(c.mountpoint));
      case None => return Ok(None);
    }
  }

  /** Devices without children, or with an empty list, take no part in either lookup. */
  lemma {:induction false} ChildlessDevicesIgnored(pre: seq<Device>, d: Device, post: seq<Device>)
    requires VisitedChildren(d) == []
    ensures AllChildren(pre + [d] + post) == AllChildren(pre + post)
    decreases |post|
  {
    if |post| == 0 {
      assert pre + [d] + post == pre + [d];
      assert (pre + [d])[..|pre|] == pre;
      assert pre + post == pre;
    } else {
      var post' := post[..|post| - 1];
      assert (pre + [d] + post)[..|pre + [d] + post| - 1] == pre + [d] + post';
      assert (pre + post)[..|pre + post| - 1] == pre + post';
      ChildlessDevicesIgnored(pre, d, post');
    }
  }
}

=== FILE: numbers.dfy ===
/**
 * The byte counts rsync prints: decimal digits grouped in threes by commas
 * ("1,234,567"). The engine strips the commas and reads the rest with `int()`.
 */
module Numbers {

  predicate IsDigit(c: char)
  {
    '0' <= c <= '9'
  }

  /**
   * The language of the capture group `(?:\d{1,3},?)+` shared by the three
   * rsync patterns: it starts with a digit, holds only digits and commas, and
   * never has two commas in a row.
   */
  predicate IsNumberText(s: string)
  {
    && |s| > 0
    && IsDigit(s[0])
    && (forall i :: 0 <= i < |s| ==> IsDigit(s[i]) || s[i] == ',')
    && (forall i :: 0 <= i < |s| - 1 && s[i] == ',' ==> s[i + 1] != ',')
  }

  /** A string the capture group can produce. */
  type NumberText = s: string | IsNumberText(s) witness "0"

  predicate AllDigits(s: string)
  {
    forall i :: 0 <= i < |s| ==> IsDigit(s[i])
  }

  /** `s.replace(',', '')`. */
  function StripCommas(s: string): (r: string)
    ensures |r| <= |s|
    ensures forall i :: 0 <= i < |r| ==> r[i] != ','
  {
    if |s| == 0 then []
    else if s[0] == ',' then StripCommas(s[1..])
    else [s[0]] + StripCommas(s[1..])
  }

  function DigitValue(c: char): (v: nat)
    requires IsDigit(c)
    ensures v < 10
  {
    (c as int) - ('0' as int)
  }

  function DigitChar(v: nat): (c: char)
    requires v < 10
    ensures IsDigit(c) && DigitValue(c) == v
  {
    (('0' as int) + v) as char
  }

  /** `int()` of a string of decimal digits (an empty string reads as 0 here; the engine never passes one). */
  function ParseDigits(s: string): nat
    requires AllDigits(s)
    decreases |s|
  {
    if |s| == 0 then 0
    else ParseDigits(s[..|s| - 1]) * 10 + DigitValue(s[|s| - 1])
  }

  function Pow10(k: nat): (r: nat)
    ensures r >= 1
  {
    if k == 0 then 1 else 10 * Pow10(k - 1)
  }

  /** `int(t.replace(',', ''))` for a captured byte count. */
  function ParseNumber(t: NumberText): nat
  {
    StripDigitsOnly(t);
    ParseDigits(StripCommas(t))
  }

  /** Removing the commas from a capture leaves only digits. */
  lemma {:induction false} StripDigitsOnly(s: string)
    requires forall i :: 0 <= i < |s| ==> IsDigit(s[i]) || s[i] == ','
    ensures AllDigits(StripCommas(s))
    decreases |s|
  {
    if |s| > 0 { StripDigitsOnly(s[1..]); }
  }

  lemma {:induction false} StripCommasAppend(a: string, b: string)
    ensures StripCommas(a + b) == StripCommas(a) + StripCommas(b)
    decreases |a|
  {
    if |a| == 0 {
      assert a + b == b;
    } else {
      assert (a + b)[1..] == a[1..] + b;
      StripCommasAppend(a[1..], b);
    }
  }

  lemma {:induction false} StripCommasOfDigits(s: string)
    requires AllDigits(s)
    ensures StripCommas(s) == s
    decreases |s|
  {
    if |s| > 0 {
      StripCommasOfDigits(s[1..]);
      assert s == [s[0]] + s[1..];
    }
  }

  /** Reading the digits of `a + b` shifts the value of `a` by the length of `b`. */
  lemma {:induction false} ParseDigitsAppend(a: string, b: string)
    requires AllDigits(a) && AllDigits(b)
    ensures AllDigits(a + b)
    ensures ParseDigits(a + b) == ParseDigits(a) * Pow10(|b|) + ParseDigits(b)
    decreases |b|
  {
    if |b| == 0 {
      assert a + b == a;
    } else {
      var b' := b[..|b| - 1];
      var d := DigitValue(b[|b| - 1]);
      assert (a + b)[..|a + b| - 1] == a + b';
      ParseDigitsAppend(a, b');
      var x, p, y := ParseDigits(a), Pow10(|b'|), ParseDigits(b');
      assert ParseDigits(a + b) == (x * p + y) * 10 + d;
      assert ParseDigits(b) == y * 10 + d;
      assert Pow10(|b|) == p * 10;
      MulShift(x, p, y, d);
    }
  }

  lemma MulShift(x: int, p: int, y: int, d: int)
    ensures (x * p + y) * 10 + d == x * (p * 10) + (y * 10 + d)
  {
  }

  /** The decimal digits of `n`, most significant first, no leading zeros. */
  function Digits(n: nat): (s: string)
    ensures |s| > 0 && AllDigits(s)
  {
    if n < 10 then [DigitChar(n)] else Digits(n / 10) + [DigitChar(n % 10)]
  }

  /** A three-digit group with leading zeros, as rsync prints every group after the first. */
  function Pad3(k: nat): (s: string)
    requires k < 1000
    ensures |s| == 3 && AllDigits(s)
  {
    [DigitChar(k / 100), DigitChar((k / 10) % 10), DigitChar(k % 10)]
  }

  /** How rsync prints a byte count: digits grouped by three from the right with commas. */
  function FormatThousands(n: nat): (s: string)
    ensures |s| > 0 && IsDigit(s[0]) && IsDigit(s[|s| - 1])
    ensures forall i :: 0 <= i < |s| ==> IsDigit(s[i]) || s[i] == ','
  {
    if n < 1000 then Digits(n)
    else FormatThousands(n / 1000) + "," + Pad3(n % 1000)
  }

  lemma {:induction false} DigitsRoundTrip(n: nat)
    ensures ParseDigits(Digits(n)) == n
  {
    if n >= 10 {
      DigitsRoundTrip(n / 10);
      var s := Digits(n);
      assert s[..|s| - 1] == Digits(n / 10);
    }
  }

  /** rsync's grouped numbers are captures of the number pattern. */
  lemma {:induction false} FormatIsNumberText(n: nat)
    ensures IsNumberText(FormatThousands(n))
  {
    var s := FormatThousands(n);
    if n >= 1000 {
      var a := FormatThousands(n / 1000);
      var b := Pad3(n % 1000);
      FormatIsNumberText(n / 1000);
      assert s == a + [','] + b;
      forall i | 0 <= i < |s| - 1 ensures s[i] == ',' ==> s[i + 1] != ',' {
        if i < |a| - 1 {
          assert s[i] == a[i] && s[i + 1] == a[i + 1];
        } else if i == |a| - 1 {
          assert s[i] == a[|a| - 1];
        } else {
          assert s[i + 1] == b[i + 1 - |a| - 1];
        }
      }
    }
  }

  lemma Pad3RoundTrip(k: nat)
    requires k < 1000
    ensures ParseDigits(Pad3(k)) == k
  {
    var b := Pad3(k);
    assert b[..2][..1] == [b[0]];
    assert ParseDigits([b[0]]) == k / 100 by {
      assert [b[0]][..0] == [];
    }
    assert ParseDigits(b[..2]) == (k / 100) * 10 + (k / 10) % 10;
  }

  /** Parsing what rsync prints gives back the byte count it printed. */
  lemma {:induction false} ParseFormatRoundTrip(n: nat)
    ensures IsNumberText(FormatThousands(n))
    ensures ParseNumber(FormatThousands(n)) == n
  {
    FormatIsNumberText(n);
    if n < 1000 {
      StripCommasOfDigits(Digits(n));
      DigitsRoundTrip(n);
    } else {
      var a := FormatThousands(n / 1000);
      var b := Pad3(n % 1000);
      ParseFormatRoundTrip(n / 1000);
      StripDigitsOnly(a);
      StripCommasAppend(a + [','], b);
      StripCommasAppend(a, [',']);
      StripCommasOfDigits(b);
      var digits := StripCommas(a);
      assert StripCommas(FormatThousands(n)) == digits + b;
      ParseDigitsAppend(digits, b);
      assert Pow10(|b|) == 1000;
      Pad3RoundTrip(n % 1000);
      assert ParseDigits(digits) == n / 1000;
      assert ParseDigits(digits + b) == (n / 1000) * 1000 + n % 1000;
    }
  }

  /** Commas carry no value: a capture reads as the digits it holds. */
  lemma {:induction false} ParseIgnoresCommas(a: string, b: string)
    requires IsNumberText(a + b) && IsNumberText(a + "," + b)
    ensures ParseNumber(a + b) == ParseNumber(a + "," + b)
  {
    StripCommasAppend(a, b);
    StripCommasAppend(a + ",", b);
    StripCommasAppend(a, ",");
    assert StripCommas(",") == [] by {
      assert ","[1..] == [];
    }
    assert StripCommas(a + "," + b) == StripCommas(a) + StripCommas(b);
  }
}

=== FILE: rsync_output.dfy ===
/**
 * Reading rsync's output (rsyncBackup.__getTransferSize and
 * rsyncBackup.__transfer). A line is given together with what the two
 * patterns the engine applies to it find: `size_regex` (the
 * "Total transferred file size: N bytes" statistics line of a dry run) and
 * `part_regex` (an "N  xx%" progress line of the real run).
 */
module RsyncOutput {
  import opened Wrappers
  import opened Numbers
  import opened Cancellation

  /** One line of rsync's combined output and the captures `findall` returns for it. */
  datatype OutputLine = OutputLine(
    text: string,                 // the line itself
    sizeHits: seq<NumberText>,    // size_regex.findall(text)
    partHits: seq<NumberText>)    // part_regex.findall(text)

  // ---------------------------------------------------------------------------
  // Dry run: the size estimate
  // ---------------------------------------------------------------------------

  datatype Estimate =
    | Estimated(size: nat)   // bytes the real transfer will move
    | EstimateCancelled      // the flag was seen: the engine returns None
    | SizeUnbound            // no statistics line and no cancel: `backup_size` is never assigned and `return` raises

  /** What the dry-run phase returns and the number of the first flag read after it. */
  datatype EstimateRun = EstimateRun(outcome: Estimate, flagReads: nat)

  /** The first line with exactly one statistics match. */
  function FirstSizeLine(lines: seq<OutputLine>): (r: Option<nat>)
    ensures r.Some? ==> r.value < |lines| && |lines[r.value].sizeHits| == 1
    ensures r.Some? ==> forall j :: 0 <= j < r.value ==> |lines[j].sizeHits| != 1
    ensures r.None? ==> forall j :: 0 <= j < |lines| ==> |lines[j].sizeHits| != 1
  {
    if |lines| == 0 then None
    else if |lines[0].sizeHits| == 1 then Some(0)
    else match FirstSizeLine(lines[1..])
      case None => None
      case Some(i) => Some(i + 1)
  }

  /** Lines the dry-run loop reads when nothing cancels it: up to and including the statistics line. */
  function ScanLength(lines: seq<OutputLine>): (n: nat)
    ensures n <= |lines|
  {
    match FirstSizeLine(lines)
    case Some(i) => i + 1
    case None => |lines|
  }

  /**
   * The dry-run phase in closed form, starting at flag read `base`: the
   * estimate is the comma-stripped number of the first line with exactly one
   * statistics match, unless the flag is seen by the read after the loop.
   */
  function EstimateOf(lines: seq<OutputLine>, c: CancelPoint, base: nat): (r: EstimateRun)
    ensures r.flagReads > base
    // the read after the loop is the last one, and it decides
    ensures r.outcome.EstimateCancelled? <==> Seen(c, r.flagReads - 1)
    ensures r.outcome.Estimated? ==> FirstSizeLine(lines).Some?
    ensures r.outcome.SizeUnbound? ==> FirstSizeLine(lines).None?
  {
    var n := ScanLength(lines);
    var j := StopIndex(c, base, n);
    var nReads := (if j < n then j + 1 else n) + 1;
    if Seen(c, base + n) then EstimateRun(EstimateCancelled, base + nReads)
    else match FirstSizeLine(lines)
      case Some(i) => EstimateRun(Estimated(ParseNumber(lines[i].sizeHits[0])), base + nReads)
      case None => EstimateRun(SizeUnbound, base + nReads)
  }

  /** rsyncBackup.__getTransferSize: the engine's read loop, which agrees with `EstimateOf`. */
  method GetTransferSize(lines: seq<OutputLine>, c: CancelPoint, base: nat) returns (run: EstimateRun)
    ensures run == EstimateOf(lines, c, base)
    ensures run.outcome.Estimated? <==>
              FirstSizeLine(lines).Some? && !Seen(c, base + ScanLength(lines))
  {
    var i := 0;
    var found := false;
    var size: Option<nat> := None;
    while !found && i < |lines| && !Seen(c, base + i)
      invariant 0 <= i <= |lines|
      invariant forall j :: 0 <= j < i ==> |lines[j].sizeHits| != 1
      invariant 0 < i ==> !Seen(c, base + i - 1)
      invariant found ==> i < |lines| && |lines[i].sizeHits| == 1 && !Seen(c, base + i)
      invariant found ==> size == Some(ParseNumber(lines[i].sizeHits[0]))
      invariant !found ==> size == None
      decreases |lines| - i, !found
    {
      if |lines[i].sizeHits| == 1 {
        size := Some(ParseNumber(lines[i].sizeHits[0]));
        found := true;
      } else {
        i := i + 1;
      }
    }
    // reads made by the loop condition: one per line it looked at
    var loopReads := if found || i < |lines| then i + 1 else i;
    var outcome: Estimate;
    if Seen(c, base + loopReads) {
      outcome := EstimateCancelled;
    } else if size.Some? {
      outcome := Estimated(size.value);
    } else {
      outcome := SizeUnbound;
    }
    run := EstimateRun(outcome, base + loopReads + 1);
  }

  /** Once the statistics line has been read, nothing printed after it matters. */
  lemma EstimateStopsAtSizeLine(pre: seq<OutputLine>, post: seq<OutputLine>, c: CancelPoint, base: nat)
    requires FirstSizeLine(pre).Some?
    ensures EstimateOf(pre + post, c, base) == EstimateOf(pre, c, base)
  {
    var i := FirstSizeLine(pre).value;
    assert (pre + post)[i] == pre[i];
    assert FirstSizeLine(pre + post) == Some(i) by {
      FirstSizeLineOfPrefix(pre, post);
    }
  }

  lemma {:induction false} FirstSizeLineOfPrefix(pre: seq<OutputLine>, post: seq<OutputLine>)
    requires FirstSizeLine(pre).Some?
    ensures FirstSizeLine(pre + post) == FirstSizeLine(pre)
  {
    if |pre[0].sizeHits| != 1 {
      assert (pre + post)[1..] == pre[1..] + post;
      FirstSizeLineOfPrefix(pre[1..], post);
    }
  }

  /** A statistics line for `n` bytes, as rsync prints it, yields `n`; the lines before it are ignored. */
  lemma EstimateReadsPrintedTotal(noise: seq<OutputLine>, text: string, n: nat, post: seq<OutputLine>, c: CancelPoint, base: nat)
    requires forall j :: 0 <= j < |noise| ==> |noise[j].sizeHits| != 1
    requires IsNumberText(FormatThousands(n))
    requires !Seen(c, base + |noise| + 1)
    ensures EstimateOf(noise + [OutputLine(text, [FormatThousands(n)], [])] + post, c, base).outcome == Estimated(n)
  {
    var line := OutputLine(text, [FormatThousands(n)], []);
    var lines := noise + [line] + post;
    assert lines[|noise|] == line;
    FirstSizeLineSkips(noise, [line] + post);
    assert noise + [line] + post == noise + ([line] + post);
    ParseFormatRoundTrip(n);
  }

  lemma {:induction false} FirstSizeLineSkips(noise: seq<OutputLine>, rest: seq<OutputLine>)
    requires forall j :: 0 <= j < |noise| ==> |noise[j].sizeHits| != 1
    requires |rest| > 0 && |rest[0].sizeHits| == 1
    ensures FirstSizeLine(noise + rest) == Some(|noise|)
  {
    if |noise| > 0 {
      assert (noise + rest)[1..] == noise[1..] + rest;
      FirstSizeLineSkips(noise[1..], rest);
    } else {
      assert noise + rest == rest;
    }
  }

  // ---------------------------------------------------------------------------
  // Real run: the transferred-bytes counter
  // ---------------------------------------------------------------------------

  /** A progress line that marks a finished file: one progress match and a `(` (rsync's "(xfr#…, to-chk=…)"). */
  predicate Finishes(l: OutputLine)
  {
    |l.partHits| == 1 && '(' in l.text
  }

  /** Bytes a line adds to the counter. */
  function LineBytes(l: OutputLine): nat
  {
    if Finishes(l) then ParseNumber(l.partHits[0]) else 0
  }

  /** Bytes of all finished files reported in `lines`. */
  function FinishedBytes(lines: seq<OutputLine>): nat
    decreases |lines|
  {
    if |lines| == 0 then 0
    else FinishedBytes(lines[..|lines| - 1]) + LineBytes(lines[|lines| - 1])
  }

  /** The characters Python's `str.isspace` accepts. */
  predicate IsSpace(ch: char)
  {
    || ch == ' ' || '\t' <= ch <= '\r' || '\U{1C}' <= ch <= '\U{1F}' || ch == '\U{85}' || ch == '\U{A0}'
    || ch == '\U{1680}' || '\U{2000}' <= ch <= '\U{200A}' || ch == '\U{2028}' || ch == '\U{2029}'
    || ch == '\U{202F}' || ch == '\U{205F}' || ch == '\U{3000}'
  }

  /** `str.rstrip()`: the line without its trailing whitespace, the newline included. */
  function RStrip(s: string): (r: string)
    ensures |r| <= |s| && r == s[..|r|]
    ensures |r| > 0 ==> !IsSpace(r[|r| - 1])
    ensures forall k :: |r| <= k < |s| ==> IsSpace(s[k])
  {
    if |s| == 0 || !IsSpace(s[|s| - 1]) then s else RStrip(s[..|s| - 1])
  }

  /** Lines without any progress match, which the engine logs, stripped, as file names. */
  function Logged(lines: seq<OutputLine>): seq<string>
    decreases |lines|
  {
    if |lines| == 0 then []
    else
      var last := lines[|lines| - 1];
      Logged(lines[..|lines| - 1]) + (if |last.partHits| == 0 then [RStrip(last.text)] else [])
  }

  datatype Transfer =
    | Transferred(transferred: nat, logged: seq<string>, progress: real, linesRead: nat, flagReads: nat)
    | DivisionByZero   // a progress line arrived while the estimate was 0

  /**
   * The transfer phase in closed form, starting at flag read `base`: the
   * lines read before the flag is seen are processed; the counter is the sum
   * over finished-file lines; a single-match line with an estimate of 0
   * raises; otherwise progress ends at 100.
   */
  function TransferOf(lines: seq<OutputLine>, estimate: nat, c: CancelPoint, base: nat): (r: Transfer)
    ensures r.Transferred? ==> r.linesRead <= |lines| && r.flagReads >= base
    // it reads the flag before each line it looks at, and stops early exactly when a read saw it
    ensures r.Transferred? ==> (r.linesRead < |lines| <==> r.flagReads > base && Seen(c, r.flagReads - 1))
    ensures r.Transferred? ==> r.flagReads - base == (if r.linesRead < |lines| then r.linesRead + 1 else r.linesRead)
    ensures c == Never && r.Transferred? ==> r.linesRead == |lines|
    ensures r.DivisionByZero? ==> estimate == 0
  {
    var m := StopIndex(c, base, |lines|);
    if estimate == 0 && exists j :: 0 <= j < m && |lines[j].partHits| == 1 then DivisionByZero
    else Transferred(FinishedBytes(lines[..m]), Logged(lines[..m]), 100.0, m,
                     base + if m < |lines| then m + 1 else m)
  }

  /** rsyncBackup.__transfer: the engine's read loop, which agrees with `TransferOf`. */
  method RunTransfer(lines: seq<OutputLine>, estimate: nat, c: CancelPoint, base: nat) returns (t: Transfer)
    ensures t == TransferOf(lines, estimate, c, base)
    ensures t.Transferred? ==> t.progress == 100.0
  {
    var transferred := 0;
    var logged: seq<string> := [];
    var i := 0;
    while i < |lines| && !Seen(c, base + i)
      invariant 0 <= i <= |lines|
      invariant 0 < i ==> !Seen(c, base + i - 1)
      invariant transferred == FinishedBytes(lines[..i])
      invariant logged == Logged(lines[..i])
      invariant estimate == 0 ==> forall j :: 0 <= j < i ==> |lines[j].partHits| != 1
    {
      var line := lines[i];
      assert lines[..i + 1][..i] == lines[..i];
      if |line.partHits| == 0 {
        logged := logged + [RStrip(line.text)];
      } else if |line.partHits| == 1 {
        var size := ParseNumber(line.partHits[0]);
        if estimate == 0 {
          // `100 * (transfered + trans_size) / self.backup_size`
          return DivisionByZero;
        }
        if '(' in line.text {
          transferred := transferred + size;
        }
      }
      i := i + 1;
    }
    t := Transferred(transferred, logged, 100.0, i, base + if i < |lines| then i + 1 else i);
  }

  /**
   * The counter never decreases, and a stretch of output without a
   * finished-file line leaves it where it was.
   */
  lemma {:induction false} FinishedBytesMonotone(a: seq<OutputLine>, b: seq<OutputLine>)
    ensures FinishedBytes(a + b) >= FinishedBytes(a)
    ensures (forall j :: 0 <= j < |b| ==> !Finishes(b[j])) ==> FinishedBytes(a + b) == FinishedBytes(a)
  {
    FinishedBytesAppend(a, b);
    FinishedBytesWithoutFinishes(b);
  }

  lemma {:induction false} FinishedBytesWithoutFinishes(b: seq<OutputLine>)
    ensures (forall j :: 0 <= j < |b| ==> !Finishes(b[j])) ==> FinishedBytes(b) == 0
    decreases |b|
  {
    if |b| > 0 {
      var b' := b[..|b| - 1];
      FinishedBytesWithoutFinishes(b');
      if forall j :: 0 <= j < |b| ==> !Finishes(b[j]) {
        assert forall j :: 0 <= j < |b'| ==> b'[j] == b[j];
      }
    }
  }

  /** The counter is additive over consecutive stretches of output. */
  lemma {:induction false} FinishedBytesAppend(a: seq<OutputLine>, b: seq<OutputLine>)
    ensures FinishedBytes(a + b) == FinishedBytes(a) + FinishedBytes(b)
    decreases |b|
  {
    if |b| == 0 {
      assert a + b == a;
    } else {
      var b' := b[..|b| - 1];
      assert (a + b)[..|a + b| - 1] == a + b';
      FinishedBytesAppend(a, b');
    }
  }

  /** The lines rsync prints for finished files of sizes `ns`, in order. */
  function FinishedLines(ns: seq<nat>): (ls: seq<OutputLine>)
    ensures |ls| == |ns|
  {
    if |ns| == 0 then []
    else
      var n := ns[|ns| - 1];
      FormatIsNumberText(n);
      var t: NumberText := FormatThousands(n);
      FinishedLines(ns[..|ns| - 1]) + [OutputLine("(xfr)", [], [t])]
  }

  function Sum(ns: seq<nat>): nat
  {
    if |ns| == 0 then 0 else Sum(ns[..|ns| - 1]) + ns[|ns| - 1]
  }

  /** Uncancelled, the counter ends at the total size of the finished files rsync reported. */
  lemma {:induction false} CounterSumsFinishedFiles(ns: seq<nat>)
    ensures FinishedBytes(FinishedLines(ns)) == Sum(ns)
  {
    if |ns| > 0 {
      var ls := FinishedLines(ns);
      CounterSumsFinishedFiles(ns[..|ns| - 1]);
      assert ls[..|ls| - 1] == FinishedLines(ns[..|ns| - 1]);
      ParseFormatRoundTrip(ns[|ns| - 1]);
      assert '(' in ls[|ls| - 1].text;
    }
  }
}

=== FILE: run.dfy ===
/**
 * One call of rsyncBackup.backup: the lock-file gate, the configuration
 * checks, planning, the dry run, eviction, the transfer, the commit and the
 * clean-up, over a world given as data.
 */
module Run {
  import opened Wrappers
  import opened Cancellation
  import opened RsyncOutput
  import opened FileTree
  import opened Snapshots
  import opened Eviction
  import opened Lsblk

  /** The fields of the configuration file the engine reads and writes. */
  datatype Config = Config(
    diskUUID: string,       // '' when no backup disk has been chosen
    backupDir: string,      // backup root, relative to the disk's mount point
    excludes: seq<string>,  // user-configured exclude directories
    backupSize: int,        // accounted size of all snapshots
    diskSize: int,          // quota
    lastBackup: string,     // date string of the last committed backup
    daysSince: int)         // days since the last backup

  /**
   * What a run finds: the lock file, the saved configuration, `lsblk`, the
   * entries of the backup root, the inode table of the backup disk and `Latest`.
   */
  datatype World = World(lock: bool, config: Config, devices: seq<Device>, root: seq<Node>, inodes: Inodes, latest: Latest)

  /**
   * What a run is given from outside: the date string, the source directory,
   * the output of both rsync runs, whether the real run created `prog_dir`,
   * and when the cancel flag is first seen.
   */
  datatype RunInput = RunInput(
    dateStr: string,
    srcDir: string,
    dryRun: seq<OutputLine>,
    transfer: seq<OutputLine>,
    destCreated: bool,
    cancel: CancelPoint)

  /** Where an exception escapes `backup()`. */
  datatype Crash =
    | NotMounted          // the days-since log line calls `.foramt` on a string
    | MountPointKeyMissing // `child['mountpoint']` on the disk's partition without that key
    | LatestUnreadable    // `os.readlink` on a `Latest` that is not a link
    | SizeLineMissing     // `backup_size` never assigned in __getTransferSize
    | EstimateIsNone      // a cancelled dry run returns None and localRemove adds it to an int
    | NoSnapshotToPop     // `dir_list.pop(0)` on an empty list
    | ZeroEstimate        // a progress line divides by an estimate of 0
    | DestinationMissing  // `os.rename(prog_dir, dst_dir)` without `prog_dir`
    | DestinationExists   // `os.rename(prog_dir, dst_dir)` onto something other than an empty directory

  datatype Status =
    | Skipped                   // the lock file existed
    | DiskNotSet                // no disk UUID in the configuration
    | Crashed(crash: Crash)
    | Finished(committed: bool)

  /**
   * The end state: the lock file, the saved configuration, `Latest`, the
   * rsync invocations, the number of flag reads made, the link source
   * chosen, the estimate, the snapshots popped for eviction, whether the
   * flag stopped the eviction, how many operations of the popped snapshots'
   * walks it performed, the transfer lines read, the inode table after
   * eviction and the in-progress directories the clean-up removed.
   */
  datatype Outcome = Outcome(
    status: Status,
    lock: bool,
    config: Config,
    latest: Latest,
    rsyncRuns: seq<seq<string>>,
    flagReads: nat,
    link: Option<string>,
    estimate: Option<nat>,
    evicted: seq<Snapshot>,
    evictCancelled: bool,
    removals: nat,
    linesRead: nat,
    inodes: Inodes,
    removed: seq<string>)

  /** A run that stops before planning, leaving `config` and `latest` as they are. */
  function Stopped(status: Status, lock: bool, w: World): Outcome
  {
    Outcome(status, lock, w.config, w.latest, [], 0, None, None, [], false, 0, 0, w.inodes, [])
  }

  // ---------------------------------------------------------------------------
  // Clean-up
  // ---------------------------------------------------------------------------

  /** What __cleanUp did: the directories `shutil.rmtree` removed, in order, and `Latest` afterwards. */
  datatype Cleaned = Cleaned(removed: seq<string>, latest: Latest)

  /** `Latest` re-created from the link source when it is missing. */
  function RestoredLatest(latest: Latest, link: Option<string>): (r: Latest)
    ensures latest.NoLatest? && link.Some? ==> r == LatestLink(link.value)
    ensures !latest.NoLatest? ==> r == latest
    ensures r.NoLatest? <==> latest.NoLatest? && link.None?
  {
    if latest.NoLatest? && link.Some? then LatestLink(link.value) else latest
  }

  /**
   * rsyncBackup.__cleanUp as written: `shutil.rmtree` on every listed
   * in-progress directory, which raises for one that does not exist (the
   * error is the first such path); then `Latest` is restored.
   */
  function CleanUpAsWritten(inProg: seq<string>, existing: set<string>, latest: Latest, link: Option<string>): Result<Cleaned, string>
  {
    if |inProg| == 0 then Ok(Cleaned([], RestoredLatest(latest, link)))
    else if inProg[0] !in existing then Err(inProg[0])
    else match CleanUpAsWritten(inProg[1..], existing - {inProg[0]}, latest, link)
      case Err(p) => Err(p)
      case Ok(rest) => Ok(Cleaned([inProg[0]] + rest.removed, rest.latest))
  }

  /**
   * __cleanUp as intended: every listed in-progress directory that exists is
   * removed, once, and one that is no longer there (`prog_dir` after the
   * commit renamed it) is passed over; then `Latest` is restored.
   */
  function CleanUp(inProg: seq<string>, existing: set<string>, latest: Latest, link: Option<string>): (r: Cleaned)
    ensures forall p :: p in r.removed <==> p in inProg && p in existing
    ensures forall i, j :: 0 <= i < j < |r.removed| ==> r.removed[i] != r.removed[j]
    ensures r.latest == RestoredLatest(latest, link)
    decreases |inProg|
  {
    if |inProg| == 0 then Cleaned([], RestoredLatest(latest, link))
    else
      var rest := CleanUp(inProg[1..], existing - {inProg[0]}, latest, link);
      assert forall p :: p in inProg <==> p == inProg[0] || p in inProg[1..];
      if inProg[0] in existing then Cleaned([inProg[0]] + rest.removed, rest.latest) else rest
  }

  /**
   * After a commit `prog_dir` was renamed away, so the clean-up as written
   * raises on it, whatever older in-progress directories come first.
   */
  lemma {:induction false} CleanUpAsWrittenRaisesAfterCommit(older: seq<string>, existing: set<string>, prog: string, latest: Latest, link: Option<string>)
    requires prog !in existing
    ensures CleanUpAsWritten(older + [prog], existing, latest, link).Err?
    decreases |older|
  {
    if |older| == 0 {
      assert older + [prog] == [prog];
    } else {
      assert (older + [prog])[1..] == older[1..] + [prog];
      if older[0] in existing {
        CleanUpAsWrittenRaisesAfterCommit(older[1..], existing - {older[0]}, prog, latest, link);
      }
    }
  }

  /** When every listed directory exists, the clean-up as written and as intended agree. */
  lemma {:induction false} CleanUpAgreesWhenAllExist(inProg: seq<string>, existing: set<string>, latest: Latest, link: Option<string>)
    requires forall i, j :: 0 <= i < j < |inProg| ==> inProg[i] != inProg[j]
    requires forall i :: 0 <= i < |inProg| ==> inProg[i] in existing
    ensures CleanUpAsWritten(inProg, existing, latest, link) == Ok(CleanUp(inProg, existing, latest, link))
    ensures CleanUp(inProg, existing, latest, link).removed == inProg
    decreases |inProg|
  {
    if |inProg| > 0 {
      forall i | 0 <= i < |inProg[1..]| ensures inProg[1..][i] in existing - {inProg[0]} {
        assert inProg[1..][i] == inProg[i + 1];
      }
      CleanUpAgreesWhenAllExist(inProg[1..], existing - {inProg[0]}, latest, link);
    }
  }

  // ---------------------------------------------------------------------------
  // backup()
  // ---------------------------------------------------------------------------

  /** `prog_dir` and `dst_dir` of the run on a disk mounted at `mountPoint`. */
  function DestinationFor(w: World, inp: RunInput, mountPoint: string): Destination
  {
    DestinationOf(Join(mountPoint, w.config.backupDir), inp.dateStr)
  }

  /** The dry run and the real run, both built from the planned command and writing into `prog_dir`. */
  function RsyncRunsFor(w: World, inp: RunInput, mountPoint: string, link: Option<string>): seq<seq<string>>
  {
    var cmd := BuildCommand(mountPoint, w.config.excludes, link);
    var prog := DestinationFor(w, inp, mountPoint).prog;
    [Invocation(cmd, DryRunOption, inp.srcDir, prog), Invocation(cmd, ProgressOption, inp.srcDir, prog)]
  }

  /** The in-progress directories the listing of the backup root found. */
  function ListedInProgress(w: World, mountPoint: string): seq<string>
  {
    InProgressPaths(Join(mountPoint, w.config.backupDir), w.root)
  }

  /**
   * `dst_dir` already names something `os.rename` cannot replace (anything
   * but an empty directory) and eviction did not delete it.
   */
  predicate DestinationTaken(entries: seq<Node>, name: string, dst: string, popped: seq<Snapshot>)
  {
    && (exists k :: 0 <= k < |entries| && entries[k].name == name && !(entries[k].Dir? && |entries[k].children| == 0))
    && (forall s :: s in popped ==> s.path != dst)
  }

  /**
   * The clean-up at the end of a run: the listed in-progress directories
   * and `prog_dir` are tried; the listed ones exist, and `prog_dir` exists
   * unless the commit renamed it or no run ever created it.
   */
  function CleanUpAfterRun(listed: seq<string>, prog: string, committed: bool, progExists: bool, latest: Latest, link: Option<string>): (r: Cleaned)
    ensures forall p :: p in listed && p != prog ==> p in r.removed
    ensures forall p :: p in r.removed ==> p in listed || p == prog
    ensures committed ==> prog !in r.removed
    ensures !committed ==> (prog in r.removed <==> progExists)
    ensures r.latest == RestoredLatest(latest, link)
  {
    var existing := (set p | p in listed && p != prog) + (if !committed && progExists then {prog} else {});
    CleanUp(listed + [prog], existing, latest, link)
  }

  /**
   * The clean-up of a finished run removed the leftovers of earlier runs,
   * every in-progress directory the listing found, and nothing else but this
   * run's `prog_dir`: that one is kept by a committed run, which renamed it,
   * and removed by any other exactly when some run created it.
   */
  predicate LeftoversRemoved(w: World, inp: RunInput, mountPoint: string, o: Outcome)
  {
    var listed := ListedInProgress(w, mountPoint);
    var prog := DestinationFor(w, inp, mountPoint).prog;
    && (forall p :: p in listed && p != prog ==> p in o.removed)
    && (forall p :: p in o.removed ==> p in listed || p == prog)
    && (o.status == Finished(true) ==> prog !in o.removed)
    && (o.status == Finished(false) ==> (prog in o.removed <==> inp.destCreated || prog in listed))
  }

  /**
   * The outcome records what eviction did: the first `removals` operations
   * of the popped snapshots' walks, all of them unless the flag stopped it,
   * leaving the inode table recorded.
   */
  predicate RemovalsRecorded(w: World, o: Outcome)
  {
    var ops := PoppedOps(o.evicted);
    && o.removals <= |ops|
    && (o.removals == |ops| <==> !o.evictCancelled)
    && o.inodes == After(w.inodes, ops[..o.removals])
  }

  /**
   * The accounted size in the saved configuration. `saveConfig` at the end
   * of `__removeDirs` stores the old size less what the recorded removals
   * gave back, whether or not the flag stopped them, unless `pop(0)` raised
   * first; a commit then adds the estimate.
   */
  predicate SizeSaved(w: World, o: Outcome)
  {
    && RemovalsRecorded(w, o)
    && (o.status == Crashed(NoSnapshotToPop) ==> o.config == w.config)
    && (o.status != Finished(true) && o.status != Crashed(NoSnapshotToPop) ==>
          o.config.backupSize == w.config.backupSize - Freed(w.inodes, PoppedOps(o.evicted)[..o.removals]))
    && (o.status == Finished(true) ==>
          o.estimate.Some? && o.config.backupSize == w.config.backupSize - Freed(w.inodes, PoppedOps(o.evicted)) + o.estimate.value)
  }

  /** `get_MountPoint` finds the disk's partition with a non-empty mount point. */
  predicate Mounted(w: World)
  {
    var m := MountPointOf(w.devices, w.config.diskUUID);
    m.Ok? && m.value.Some? && m.value.value != ""
  }

  /** rsyncBackup.backup, with the clean-up as intended and eviction removing the popped directory. */
  function RunBackup(w: World, inp: RunInput): (o: Outcome)
    ensures w.lock ==> o == Stopped(Skipped, true, w)
    ensures !w.lock && w.config.diskUUID == "" ==> o == Stopped(DiskNotSet, false, w)
    ensures !w.lock ==> (o.lock <==> o.status.Crashed?)
    ensures o.status.Finished? ==> |o.rsyncRuns| == 2 && o.flagReads > 0
    ensures o.status.Finished? ==> (o.status.committed <==> !Seen(inp.cancel, o.flagReads - 1))
    // a flag seen during eviction or the transfer is still set at the commit check
    ensures o.status.Finished? && (o.evictCancelled || o.linesRead < |inp.transfer|) ==> !o.status.committed
    ensures inp.cancel == Never && o.status.Finished? ==> o.status.committed
    ensures o.status == Finished(true) ==>
              o.config.lastBackup == inp.dateStr && o.config.daysSince == 0 && o.estimate.Some?
    ensures o.status == Finished(false) ==>
              o.config.lastBackup == w.config.lastBackup && o.config.daysSince == w.config.daysSince
    ensures o.status == Finished(false) && o.link.Some? ==> o.latest == LatestLink(o.link.value)
    ensures o.status.Finished? ==> o.config.diskUUID == w.config.diskUUID && o.config.excludes == w.config.excludes
    ensures !w.lock && w.config.diskUUID != "" && MountPointOf(w.devices, w.config.diskUUID).Err? ==>
              o == Stopped(Crashed(MountPointKeyMissing), true, w)
    ensures !w.lock && w.config.diskUUID != "" && MountPointOf(w.devices, w.config.diskUUID) in {Ok(None), Ok(Some(""))} ==>
              o == Stopped(Crashed(NotMounted), true, w)
    // a flag set before the dry run's first read makes `__getTransferSize` return None, and `None + int` raises
    ensures !w.lock && w.config.diskUUID != "" && Mounted(w) && !w.latest.LatestNotLink? && inp.cancel == AtRead(0) ==>
              o.status == Crashed(EstimateIsNone) && o.lock
    ensures o.status.Finished? ==> Mounted(w)
    ensures o.status.Finished? && Mounted(w) ==>
              var mountPoint := MountPointOf(w.devices, w.config.diskUUID).value.value;
              var dest := DestinationFor(w, inp, mountPoint);
              && o.rsyncRuns == RsyncRunsFor(w, inp, mountPoint, o.link)
              && (o.status.committed ==> o.latest == LatestLink(dest.dst))
              && (o.status.committed ==> !DestinationTaken(w.root, inp.dateStr, dest.dst, o.evicted))
              && LeftoversRemoved(w, inp, mountPoint, o)
    ensures SizeSaved(w, o)
    ensures o.status.Finished? && !o.evictCancelled ==> o.inodes == Unlinked(w.inodes, Entries(o.evicted))
    ensures o.status == Finished(true) && NoMixedInodes(Entries(o.evicted)) ==>
              o.config.backupSize == w.config.backupSize - SnapshotBytes(o.evicted, w.inodes) + o.estimate.value
  {
    if w.lock then Stopped(Skipped, true, w)
    else if w.config.diskUUID == "" then Stopped(DiskNotSet, false, w)
    else
      var mount := MountPointOf(w.devices, w.config.diskUUID);
      if mount.Err? then Stopped(Crashed(MountPointKeyMissing), true, w)
      else if mount.value.None? || mount.value.value == "" then Stopped(Crashed(NotMounted), true, w)
      else Backup(w, inp, mount.value.value)
  }

  /** The part of `backup()` after the disk was found mounted at `mountPoint`. */
  function Backup(w: World, inp: RunInput, mountPoint: string): (o: Outcome)
    requires !w.lock
    ensures o.lock <==> o.status.Crashed?
    ensures !o.status.Skipped? && !o.status.DiskNotSet?
    ensures !w.latest.LatestNotLink? && inp.cancel == AtRead(0) ==> o.status == Crashed(EstimateIsNone)
    ensures o.status.Finished? ==> |o.rsyncRuns| == 2 && o.flagReads > 0
    ensures o.status.Finished? ==> (o.status.committed <==> !Seen(inp.cancel, o.flagReads - 1))
    ensures o.status.Finished? && (o.evictCancelled || o.linesRead < |inp.transfer|) ==> !o.status.committed
    ensures inp.cancel == Never && o.status.Finished? ==> o.status.committed
    ensures o.status == Finished(true) ==>
              o.config.lastBackup == inp.dateStr && o.config.daysSince == 0 && o.estimate.Some?
    ensures o.status == Finished(false) ==>
              o.config.lastBackup == w.config.lastBackup && o.config.daysSince == w.config.daysSince
    ensures o.status == Finished(false) && o.link.Some? ==> o.latest == LatestLink(o.link.value)
    ensures o.status.Finished? ==> o.config.diskUUID == w.config.diskUUID && o.config.excludes == w.config.excludes
    ensures o.status.Finished? ==> o.rsyncRuns == RsyncRunsFor(w, inp, mountPoint, o.link)
    ensures o.status == Finished(true) ==> o.latest == LatestLink(DestinationFor(w, inp, mountPoint).dst)
    ensures o.status == Finished(true) ==>
              !DestinationTaken(w.root, inp.dateStr, DestinationFor(w, inp, mountPoint).dst, o.evicted)
    ensures o.status.Finished? ==> LeftoversRemoved(w, inp, mountPoint, o)
    ensures SizeSaved(w, o)
    ensures o.status.Finished? && !o.evictCancelled ==> o.inodes == Unlinked(w.inodes, Entries(o.evicted))
    ensures o.status == Finished(true) && NoMixedInodes(Entries(o.evicted)) ==>
              o.config.backupSize == w.config.backupSize - SnapshotBytes(o.evicted, w.inodes) + o.estimate.value
  {
    var config := w.config;
    var c := inp.cancel;
    var backupDir := Join(mountPoint, config.backupDir);
    var listing := ListingOf(backupDir, w.root);
    var dest := DestinationOf(backupDir, inp.dateStr);
    match GetLinkDir(w.latest, listing.complete)
    case Err(_) => Stopped(Crashed(LatestUnreadable), true, w)
    case Ok(choice) =>
      var cmd := BuildCommand(mountPoint, config.excludes, choice.link);
      var dryCmd := Invocation(cmd, DryRunOption, inp.srcDir, dest.prog);
      var est := EstimateOf(inp.dryRun, c, 0);
      match est.outcome
      case SizeUnbound =>
        Outcome(Crashed(SizeLineMissing), true, config, choice.latest, [dryCmd], est.flagReads, choice.link, None, [], false, 0, 0, w.inodes, [])
      case EstimateCancelled =>
        Outcome(Crashed(EstimateIsNone), true, config, choice.latest, [dryCmd], est.flagReads, choice.link, None, [], false, 0, 0, w.inodes, [])
      case Estimated(n) => EvictAndTransfer(w, inp, mountPoint, choice, n, est.flagReads)
  }

  /**
   * `__removeDirs` and `__transfer` after an estimate of `n` bytes, with
   * flag reads numbered from `base`, then the commit.
   */
  function EvictAndTransfer(w: World, inp: RunInput, mountPoint: string, choice: LinkChoice, n: nat, base: nat): (o: Outcome)
    ensures o.lock <==> o.status.Crashed?
    ensures o.status.Crashed? || o.status.Finished?
    ensures o.status.Finished? ==> o.flagReads > base
    ensures o.status.Finished? ==> (o.status.committed <==> !Seen(inp.cancel, o.flagReads - 1))
    ensures o.status.Finished? && (o.evictCancelled || o.linesRead < |inp.transfer|) ==> !o.status.committed
    ensures inp.cancel == Never && o.status.Finished? ==> o.status.committed
    ensures o.estimate == Some(n) && o.link == choice.link
    ensures o.status == Finished(true) ==>
              && o.config == w.config.(backupSize := o.config.backupSize, lastBackup := inp.dateStr, daysSince := 0)
              && o.latest == LatestLink(DestinationFor(w, inp, mountPoint).dst)
              && !DestinationTaken(w.root, inp.dateStr, DestinationFor(w, inp, mountPoint).dst, o.evicted)
    ensures o.status == Finished(false) ==>
              o.config == w.config.(backupSize := o.config.backupSize) && o.latest == RestoredLatest(choice.latest, choice.link)
    ensures o.status.Finished? ==> o.rsyncRuns == RsyncRunsFor(w, inp, mountPoint, choice.link)
    ensures o.status.Finished? ==> LeftoversRemoved(w, inp, mountPoint, o)
    ensures SizeSaved(w, o)
    ensures o.status.Finished? && !o.evictCancelled ==> o.inodes == Unlinked(w.inodes, Entries(o.evicted))
    ensures o.status == Finished(true) && NoMixedInodes(Entries(o.evicted)) ==>
              o.config.backupSize == w.config.backupSize - SnapshotBytes(o.evicted, w.inodes) + n
  {
    var config := w.config;
    var queue := ListingOf(Join(mountPoint, config.backupDir), w.root).complete;
    var ev := Evict(config.backupSize, n, config.diskSize, queue, w.inodes, inp.cancel, base);
    EvictPerformed(config.backupSize, n, config.diskSize, queue, w.inodes, inp.cancel, base);
    EvictReclaims(config.backupSize, n, config.diskSize, queue, w.inodes, inp.cancel, base);
    TransferAndCommit(w, inp, mountPoint, choice, n, base, ev, Performed(ev, base))
  }

  /**
   * What follows eviction `ev`, which performed `removals` operations: the
   * transfer, then the commit. `pop(0)` raising skips `saveConfig`; any
   * other eviction has its accounted size saved before the transfer.
   */
  function TransferAndCommit(w: World, inp: RunInput, mountPoint: string, choice: LinkChoice, n: nat, base: nat,
                             ev: Eviction, removals: nat): (o: Outcome)
    requires ev.flagReads >= base
    requires ev.status == EvictCancelled ==> ev.flagReads > base && Seen(inp.cancel, ev.flagReads - 1)
    ensures o.lock <==> o.status.Crashed?
    ensures o.status.Crashed? || o.status.Finished?
    ensures o.status.Finished? ==> o.flagReads > base
    ensures o.status.Finished? ==> (o.status.committed <==> !Seen(inp.cancel, o.flagReads - 1))
    ensures o.status.Finished? && (o.evictCancelled || o.linesRead < |inp.transfer|) ==> !o.status.committed
    ensures inp.cancel == Never && o.status.Finished? ==> o.status.committed
    ensures o.estimate == Some(n) && o.link == choice.link
    ensures o.status == Finished(true) ==>
              && o.config == w.config.(backupSize := o.config.backupSize, lastBackup := inp.dateStr, daysSince := 0)
              && o.latest == LatestLink(DestinationFor(w, inp, mountPoint).dst)
              && !DestinationTaken(w.root, inp.dateStr, DestinationFor(w, inp, mountPoint).dst, o.evicted)
    ensures o.status == Finished(false) ==>
              o.config == w.config.(backupSize := o.config.backupSize) && o.latest == RestoredLatest(choice.latest, choice.link)
    ensures o.status.Finished? ==> o.rsyncRuns == RsyncRunsFor(w, inp, mountPoint, choice.link)
    ensures o.status.Finished? ==> LeftoversRemoved(w, inp, mountPoint, o)
    ensures && o.evicted == ev.popped && o.inodes == ev.inodes && o.evictCancelled == (ev.status == EvictCancelled)
            && o.removals == removals
    ensures o.status == Crashed(NoSnapshotToPop) ==> o.config == w.config
    ensures o.status != Finished(true) && o.status != Crashed(NoSnapshotToPop) ==> o.config.backupSize == ev.accounted
    ensures o.status == Finished(true) ==> o.config.backupSize == ev.accounted + n
  {
    var config := w.config;
    var c := inp.cancel;
    var cancelled := ev.status == EvictCancelled;
    var dryRun := RsyncRunsFor(w, inp, mountPoint, choice.link)[..1];
    if ev.status == NothingToPop then
      // the exception skips `saveConfig`: the file keeps the old size
      Outcome(Crashed(NoSnapshotToPop), true, config, choice.latest, dryRun, ev.flagReads, choice.link, Some(n), ev.popped, cancelled, removals, 0, ev.inodes, [])
    else
      match TransferOf(inp.transfer, n, c, ev.flagReads)
      case DivisionByZero =>
        Outcome(Crashed(ZeroEstimate), true, config.(backupSize := ev.accounted), choice.latest,
                RsyncRunsFor(w, inp, mountPoint, choice.link), ev.flagReads, choice.link, Some(n), ev.popped, cancelled, removals, 0, ev.inodes, [])
      case Transferred(_, _, _, read, done) =>
        Commit(w, inp, mountPoint, choice, n, ev, removals, read, done)
  }

  /**
   * From `if not self.__cancel` on: the rename, `Latest`, the saved
   * configuration and the clean-up, after eviction `ev` and a transfer that
   * read `read` lines, with `done` the number of the commit check's flag read.
   */
  function Commit(w: World, inp: RunInput, mountPoint: string, choice: LinkChoice, n: nat, ev: Eviction, removals: nat, read: nat, done: nat): (o: Outcome)
    ensures o.lock <==> o.status.Crashed?
    ensures o.status.Finished? || o.status == Crashed(DestinationMissing) || o.status == Crashed(DestinationExists)
    ensures o.status.Crashed? ==> !Seen(inp.cancel, done)
    ensures o.status.Finished? ==> (o.status.committed <==> !Seen(inp.cancel, done))
    ensures && o.flagReads == done + 1 && o.linesRead == read && o.estimate == Some(n) && o.link == choice.link
            && o.evicted == ev.popped && o.inodes == ev.inodes && o.evictCancelled == (ev.status == EvictCancelled)
            && o.removals == removals
    ensures o.rsyncRuns == RsyncRunsFor(w, inp, mountPoint, choice.link)
    ensures o.status == Finished(true) ==>
              && o.config == w.config.(backupSize := ev.accounted + n, lastBackup := inp.dateStr, daysSince := 0)
              && o.latest == LatestLink(DestinationFor(w, inp, mountPoint).dst)
              && !DestinationTaken(w.root, inp.dateStr, DestinationFor(w, inp, mountPoint).dst, ev.popped)
    ensures o.status == Finished(false) ==>
              o.config == w.config.(backupSize := ev.accounted) && o.latest == RestoredLatest(choice.latest, choice.link)
    // the size `__removeDirs` saved stays in the file unless the commit saves a new one
    ensures o.status != Finished(true) ==> o.config == w.config.(backupSize := ev.accounted)
    ensures o.status.Finished? ==> LeftoversRemoved(w, inp, mountPoint, o)
  {
    var c := inp.cancel;
    var listed := ListedInProgress(w, mountPoint);
    var dest := DestinationFor(w, inp, mountPoint);
    var saved := w.config.(backupSize := ev.accounted);
    var ended := Outcome(Crashed(DestinationMissing), true, saved, choice.latest, RsyncRunsFor(w, inp, mountPoint, choice.link),
                         done + 1, choice.link, Some(n), ev.popped, ev.status == EvictCancelled, removals, read, ev.inodes, []);
    // `if not self.__cancel` is one more read of the flag
    var committed := !Seen(c, done);
    var progExists := inp.destCreated || dest.prog in listed;
    if committed && !progExists then ended
    else if committed && DestinationTaken(w.root, inp.dateStr, dest.dst, ev.popped) then
      ended.(status := Crashed(DestinationExists))
    else
      var final := if committed then saved.(backupSize := ev.accounted + n, lastBackup := inp.dateStr, daysSince := 0)
                   else saved;
      var latest := if committed then LatestLink(dest.dst) else choice.latest;
      var cleaned := CleanUpAfterRun(listed, dest.prog, committed, progExists, latest, choice.link);
      ended.(status := Finished(committed), lock := false, config := final, latest := cleaned.latest,
             removed := cleaned.removed)
  }

}

=== FILE: snapshots.dfy ===
/**
 * The backup root and what the engine plans from it
 * (rsyncBackup.__getDirList, rsyncBackup.__getLinkDir and the path and
 * command construction at the start of rsyncBackup.backup).
 */
module Snapshots {
  import opened Wrappers
  import opened Strings
  import opened FileTree

  const InProgressMarker := ".inprogress"
  const LatestName := "Latest"
  const BaseCommand := ["rsync", "-a", "--stats"]
  const ExcludeFlag := "--exclude="
  const LinkDestFlag := "--link-dest="

  /** `os.path.join(a, b)` for two components. */
  function Join(a: string, b: string): string
  {
    if |b| > 0 && b[0] == '/' then b
    else if |a| == 0 || a[|a| - 1] == '/' then a + b
    else a + "/" + b
  }

  /** A backup directory found under the root: its full path and its contents. */
  datatype Snapshot = Snapshot(path: string, children: seq<Node>)

  function PathOf(s: Snapshot): string
  {
    s.path
  }

  /** Snapshots in ascending order of their paths, as `dirs.sort()` leaves them. */
  ghost predicate SortedByPath(ss: seq<Snapshot>)
  {
    SortedBy(ss, PathOf)
  }

  /** `os.path.isdir(tmp) and not os.path.islink(tmp)` on an entry of the root. */
  predicate IsKept(e: Node)
  {
    e.Dir?
  }

  predicate IsInProgress(e: Node)
  {
    e.Dir? && Contains(e.name, InProgressMarker)
  }

  predicate IsComplete(e: Node)
  {
    e.Dir? && !Contains(e.name, InProgressMarker)
  }

  function SnapshotOf(root: string, e: Node): Snapshot
    requires e.Dir?
  {
    Snapshot(Join(root, e.name), e.children)
  }

  /** Paths of the in-progress directories, in listing order. */
  function InProgressPaths(root: string, entries: seq<Node>): seq<string>
  {
    if |entries| == 0 then []
    else
      var last := entries[|entries| - 1];
      InProgressPaths(root, entries[..|entries| - 1])
      + (if IsInProgress(last) then [Join(root, last.name)] else [])
  }

  /** The complete snapshots, in listing order (before sorting). */
  function CompleteSnapshots(root: string, entries: seq<Node>): seq<Snapshot>
  {
    if |entries| == 0 then []
    else
      var last := entries[|entries| - 1];
      CompleteSnapshots(root, entries[..|entries| - 1])
      + (if IsComplete(last) then [SnapshotOf(root, last)] else [])
  }

  function CountKept(entries: seq<Node>): nat
  {
    if |entries| == 0 then 0
    else CountKept(entries[..|entries| - 1]) + (if IsKept(entries[|entries| - 1]) then 1 else 0)
  }

  datatype Listing = Listing(complete: seq<Snapshot>, inProgress: seq<string>)

  /** The listing the engine builds from the entries of the root. */
  function ListingOf(root: string, entries: seq<Node>): Listing
  {
    Listing(SortBy(CompleteSnapshots(root, entries), PathOf), InProgressPaths(root, entries))
  }

  /**
   * The listing classifies every entry: a snapshot is complete exactly when
   * its entry is a real directory without the marker, a path is in progress
   * exactly when its entry is a real directory with the marker, and nothing
   * else is kept. The complete snapshots come out sorted by path.
   */
  lemma {:induction false} ListingClassifiesEntries(root: string, entries: seq<Node>)
    ensures forall s :: s in ListingOf(root, entries).complete <==>
              exists i :: 0 <= i < |entries| && IsComplete(entries[i]) && s == SnapshotOf(root, entries[i])
    ensures forall p :: p in ListingOf(root, entries).inProgress <==>
              exists i :: 0 <= i < |entries| && IsInProgress(entries[i]) && p == Join(root, entries[i].name)
    ensures |ListingOf(root, entries).complete| + |ListingOf(root, entries).inProgress| == CountKept(entries)
    ensures SortedByPath(ListingOf(root, entries).complete)
  {
    var dirs := CompleteSnapshots(root, entries);
    var sorted := SortBy(dirs, PathOf);
    CompleteSnapshotsClassify(root, entries);
    InProgressPathsClassify(root, entries);
    forall s ensures s in sorted <==> s in dirs {
      assert s in sorted <==> s in multiset(sorted);
      assert s in dirs <==> s in multiset(dirs);
    }
    assert |sorted| == |multiset(sorted)| == |multiset(dirs)| == |dirs|;
  }

  lemma {:induction false} CompleteSnapshotsClassify(root: string, entries: seq<Node>)
    ensures forall s :: s in CompleteSnapshots(root, entries) <==>
              exists i :: 0 <= i < |entries| && IsComplete(entries[i]) && s == SnapshotOf(root, entries[i])
    ensures |CompleteSnapshots(root, entries)| + |InProgressPaths(root, entries)| == CountKept(entries)
    decreases |entries|
  {
    if |entries| > 0 {
      var init := entries[..|entries| - 1];
      var last := entries[|entries| - 1];
      CompleteSnapshotsClassify(root, init);
      forall s ensures s in CompleteSnapshots(root, entries) <==>
                 exists i :: 0 <= i < |entries| && IsComplete(entries[i]) && s == SnapshotOf(root, entries[i]) {
        if exists i :: 0 <= i < |entries| && IsComplete(entries[i]) && s == SnapshotOf(root, entries[i]) {
          var i :| 0 <= i < |entries| && IsComplete(entries[i]) && s == SnapshotOf(root, entries[i]);
          if i < |init| { assert init[i] == entries[i]; }
        }
        if s in CompleteSnapshots(root, init) {
          var i :| 0 <= i < |init| && IsComplete(init[i]) && s == SnapshotOf(root, init[i]);
          assert entries[i] == init[i];
        }
      }
      assert IsKept(last) <==> IsComplete(last) || IsInProgress(last);
    }
  }

  lemma {:induction false} InProgressPathsClassify(root: string, entries: seq<Node>)
    ensures forall p :: p in InProgressPaths(root, entries) <==>
              exists i :: 0 <= i < |entries| && IsInProgress(entries[i]) && p == Join(root, entries[i].name)
    decreases |entries|
  {
    if |entries| > 0 {
      var init := entries[..|entries| - 1];
      InProgressPathsClassify(root, init);
      forall p ensures p in InProgressPaths(root, entries) <==>
                 exists i :: 0 <= i < |entries| && IsInProgress(entries[i]) && p == Join(root, entries[i].name) {
        if exists i :: 0 <= i < |entries| && IsInProgress(entries[i]) && p == Join(root, entries[i].name) {
          var i :| 0 <= i < |entries| && IsInProgress(entries[i]) && p == Join(root, entries[i].name);
          if i < |init| { assert init[i] == entries[i]; }
        }
        if p in InProgressPaths(root, init) {
          var i :| 0 <= i < |init| && IsInProgress(init[i]) && p == Join(root, init[i].name);
          assert entries[i] == init[i];
        }
      }
    }
  }

  /**
   * rsyncBackup.__getDirList over the entries of the root, in `os.listdir`
   * order: the complete snapshots are a permutation of the ones found, in
   * `listdir` order; the in-progress paths keep `listdir` order.
   */
  method GetDirList(root: string, entries: seq<Node>) returns (r: Listing)
    ensures r == ListingOf(root, entries)
    ensures multiset(r.complete) == multiset(CompleteSnapshots(root, entries))
  {
    var dirs: seq<Snapshot> := [];
    var inprog: seq<string> := [];
    var k := 0;
    while k < |entries|
      invariant 0 <= k <= |entries|
      invariant inprog == InProgressPaths(root, entries[..k])
      invariant dirs == CompleteSnapshots(root, entries[..k])
    {
      var e := entries[k];
      assert entries[..k + 1][..k] == entries[..k];
      if e.Dir? {
        if Contains(e.name, InProgressMarker) {
          inprog := inprog + [Join(root, e.name)];
        } else {
          dirs := dirs + [SnapshotOf(root, e)];
        }
      }
      k := k + 1;
    }
    assert entries[..k] == entries;
    r := Listing(SortBy(dirs, PathOf), inprog);
  }

  /** Sorting by path is sorting by name: every path starts with the same root. */
  lemma PathOrderIsNameOrder(root: string, a: string, b: string)
    requires |a| > 0 && a[0] != '/' && |b| > 0 && b[0] != '/'
    ensures LexLe(Join(root, a), Join(root, b)) <==> LexLe(a, b)
  {
    var sep := if |root| == 0 || root[|root| - 1] == '/' then root else root + "/";
    assert Join(root, a) == sep + a;
    assert Join(root, b) == sep + b;
    LexLeCommonPrefix(sep, a, b);
  }

  /** What `Latest` is when the run starts (`os.path.lexists`, `os.readlink`). */
  datatype Latest =
    | NoLatest                   // nothing at the path
    | LatestLink(target: string) // a symbolic link; `target` is what `readlink` returns
    | LatestNotLink              // something that is not a link: `readlink` raises

  datatype LinkChoice = LinkChoice(link: Option<string>, latest: Latest)

  datatype PlanError = ReadlinkFailed

  /**
   * rsyncBackup.__getLinkDir: the raw target of `Latest`, which is then
   * removed; else the last, i.e. greatest, complete snapshot; else none.
   */
  function GetLinkDir(latest: Latest, complete: seq<Snapshot>): (r: Result<LinkChoice, PlanError>)
    ensures r.Err? <==> latest.LatestNotLink?
    ensures r.Ok? ==> r.value.latest == NoLatest
    ensures latest.LatestLink? ==> r == Ok(LinkChoice(Some(latest.target), NoLatest))
    ensures latest.NoLatest? && |complete| == 0 ==> r == Ok(LinkChoice(None, NoLatest))
    ensures latest.NoLatest? && |complete| > 0 ==>
              r.Ok? && r.value.link.Some? &&
              (exists s :: s in complete && s.path == r.value.link.value)
    ensures latest.NoLatest? && SortedByPath(complete) && r.Ok? && r.value.link.Some? ==>
              forall s :: s in complete ==> LexLe(s.path, r.value.link.value)
  {
    match latest
    case LatestLink(target) => Ok(LinkChoice(Some(target), NoLatest))
    case LatestNotLink => Err(ReadlinkFailed)
    case NoLatest =>
      if |complete| > 0 then
        var newest := complete[|complete| - 1];
        assert SortedByPath(complete) ==> forall s :: s in complete ==> LexLe(s.path, newest.path) by {
          if SortedByPath(complete) {
            forall s | s in complete ensures LexLe(s.path, newest.path) {
              var i :| 0 <= i < |complete| && complete[i] == s;
              if i == |complete| - 1 { LexLeReflexive(s.path); }
            }
          }
        }
        Ok(LinkChoice(Some(newest.path), NoLatest))
      else Ok(LinkChoice(None, NoLatest))
  }

  /** `dst_dir` and `prog_dir` of a run stamped `dateStr`. */
  datatype Destination = Destination(dst: string, prog: string)

  function DestinationOf(backupDir: string, dateStr: string): Destination
  {
    var dst := Join(backupDir, dateStr);
    Destination(dst, dst + InProgressMarker)
  }

  /**
   * The directory a run transfers into is found as in-progress by the next
   * listing, and the directory it is renamed to is found as complete.
   */
  lemma DestinationClassification(dateStr: string, children: seq<Node>)
    ensures IsInProgress(Dir(dateStr + InProgressMarker, children))
    ensures !Contains(dateStr, InProgressMarker) ==> IsComplete(Dir(dateStr, children))
  {
    ContainsInfix(dateStr, InProgressMarker, "");
    assert dateStr + InProgressMarker + "" == dateStr + InProgressMarker;
  }

  /** The argument list of both rsync runs before their final options. */
  function BuildCommand(mountPoint: string, excludes: seq<string>, link: Option<string>): (cmd: seq<string>)
    ensures |cmd| == 4 + |excludes| + (if link.Some? then 1 else 0)
    ensures cmd[..3] == BaseCommand
    ensures cmd[3] == ExcludeFlag + mountPoint
    ensures forall i :: 0 <= i < |excludes| ==> cmd[4 + i] == ExcludeFlag + excludes[i]
    ensures link.Some? ==> cmd[|cmd| - 1] == LinkDestFlag + link.value
  {
    var withExcludes := BaseCommand + [ExcludeFlag + mountPoint] + ExcludeArgs(excludes);
    if link.Some? then withExcludes + [LinkDestFlag + link.value] else withExcludes
  }

  /** `--exclude=<dir>` for every configured directory, in order. */
  function ExcludeArgs(excludes: seq<string>): (args: seq<string>)
    ensures |args| == |excludes|
    ensures forall i :: 0 <= i < |excludes| ==> args[i] == ExcludeFlag + excludes[i]
  {
    if |excludes| == 0 then [] else [ExcludeFlag + excludes[0]] + ExcludeArgs(excludes[1..])
  }

  predicate StartsWith(s: string, prefix: string)
  {
    |prefix| <= |s| && s[..|prefix|] == prefix
  }

  /** The values of the `--exclude=` arguments of a command, in order. */
  function ExcludedDirs(cmd: seq<string>): seq<string>
  {
    if |cmd| == 0 then []
    else
      (if StartsWith(cmd[0], ExcludeFlag) then [cmd[0][|ExcludeFlag|..]] else [])
      + ExcludedDirs(cmd[1..])
  }

  lemma {:induction false} ExcludedDirsAppend(a: seq<string>, b: seq<string>)
    ensures ExcludedDirs(a + b) == ExcludedDirs(a) + ExcludedDirs(b)
  {
    if |a| == 0 {
      assert a + b == b;
    } else {
      assert (a + b)[1..] == a[1..] + b;
      ExcludedDirsAppend(a[1..], b);
    }
  }

  lemma {:induction false} ExcludeArgsRoundTrip(excludes: seq<string>)
    ensures ExcludedDirs(ExcludeArgs(excludes)) == excludes
  {
    if |excludes| > 0 {
      var a := ExcludeArgs(excludes);
      assert a == [a[0]] + a[1..];
      ExcludedDirsAppend([a[0]], a[1..]);
      assert (ExcludeFlag + excludes[0])[..|ExcludeFlag|] == ExcludeFlag;
      assert (ExcludeFlag + excludes[0])[|ExcludeFlag|..] == excludes[0];
      ExcludeArgsRoundTrip(excludes[1..]);
    }
  }

  lemma ExcludedDirsOne(arg: string)
    ensures ExcludedDirs([arg]) == if StartsWith(arg, ExcludeFlag) then [arg[|ExcludeFlag|..]] else []
  {
    var one: seq<string> := [arg];
    assert |one[1..]| == 0;
  }

  lemma ExcludedDirsOfBase()
    ensures ExcludedDirs(BaseCommand) == []
  {
    ExcludedDirsOne("rsync");
    ExcludedDirsOne("-a");
    ExcludedDirsOne("--stats");
    ExcludedDirsAppend(["rsync"], ["-a"]);
    ExcludedDirsAppend(["rsync", "-a"], ["--stats"]);
    assert BaseCommand == ["rsync", "-a"] + ["--stats"];
    assert ["rsync", "-a"] == ["rsync"] + ["-a"];
  }

  lemma ExcludedDirsOfHead(mountPoint: string, excludes: seq<string>)
    ensures ExcludedDirs(BaseCommand + [ExcludeFlag + mountPoint] + ExcludeArgs(excludes)) == [mountPoint] + excludes
  {
    var m: string := ExcludeFlag + mountPoint;
    ExcludedDirsOfBase();
    ExcludedDirsOne(m);
    assert m[..|ExcludeFlag|] == ExcludeFlag;
    assert m[|ExcludeFlag|..] == mountPoint;
    ExcludedDirsAppend(BaseCommand, [m]);
    ExcludedDirsAppend(BaseCommand + [m], ExcludeArgs(excludes));
    ExcludeArgsRoundTrip(excludes);
  }

  /** The command excludes exactly the mount point and then the configured directories, in config order. */
  lemma CommandExcludes(mountPoint: string, excludes: seq<string>, link: Option<string>)
    ensures ExcludedDirs(BuildCommand(mountPoint, excludes, link)) == [mountPoint] + excludes
  {
    var withExcludes := BaseCommand + [ExcludeFlag + mountPoint] + ExcludeArgs(excludes);
    ExcludedDirsOfHead(mountPoint, excludes);
    if link.Some? {
      var arg: string := LinkDestFlag + link.value;
      assert !StartsWith(arg, ExcludeFlag) by {
        assert arg[2] == 'l' && ExcludeFlag[2] == 'e';
      }
      ExcludedDirsOne(arg);
      ExcludedDirsAppend(withExcludes, [arg]);
      assert BuildCommand(mountPoint, excludes, link) == withExcludes + [arg];
    } else {
      assert BuildCommand(mountPoint, excludes, link) == withExcludes;
    }
  }

  /** The command asks rsync to hard-link against a snapshot exactly when a link source was found. */
  lemma CommandLinksIffSource(mountPoint: string, excludes: seq<string>, link: Option<string>)
    ensures (exists i :: 0 <= i < |BuildCommand(mountPoint, excludes, link)| &&
               StartsWith(BuildCommand(mountPoint, excludes, link)[i], LinkDestFlag)) <==> link.Some?
  {
    var cmd := BuildCommand(mountPoint, excludes, link);
    if link.Some? {
      assert (LinkDestFlag + link.value)[..|LinkDestFlag|] == LinkDestFlag;
      assert StartsWith(cmd[|cmd| - 1], LinkDestFlag);
    } else {
      forall i | 0 <= i < |cmd| ensures !StartsWith(cmd[i], LinkDestFlag) {
        if i < 3 {
          assert cmd[i] == BaseCommand[i];
        } else {
          assert StartsWith(cmd[i], ExcludeFlag) by {
            if i == 3 {
              assert cmd[3][..|ExcludeFlag|] == ExcludeFlag;
            } else {
              assert cmd[i] == ExcludeFlag + excludes[i - 4];
              assert cmd[i][..|ExcludeFlag|] == ExcludeFlag;
            }
          }
          assert cmd[i][2] == 'e';
        }
      }
    }
  }

  /** The option that makes rsync's first run a dry run. */
  const DryRunOption := "-n"

  /** The option that makes rsync's second run report progress. */
  const ProgressOption := "--progress"

  /**
   * One rsync run: `cmd + [option, src_dir, prog_dir]`. The dry run passes
   * `-n` and the real run `--progress`; both write into `prog_dir`.
   */
  function Invocation(cmd: seq<string>, option: string, srcDir: string, progDir: string): (r: seq<string>)
    ensures |r| == |cmd| + 3 && r[..|cmd|] == cmd
    ensures r[|cmd|] == option && r[|r| - 1] == progDir
  {
    cmd + [option, srcDir, progDir]
  }
}

=== FILE: strings.dfy ===
/** String helpers with the meaning Python gives them: `sub in s`, `<=` on `str`, and `list.sort()`. */
module Strings {

  /** `sub` occurs in `s` starting at index `i`. */
  ghost predicate OccursAt(s: string, sub: string, i: int)
  {
    0 <= i && i + |sub| <= |s| && s[i..i + |sub|] == sub
  }

  /** Python's `sub in s` on strings, decided by scanning from the left. */
  predicate Contains(s: string, sub: string)
    decreases |s|
  {
    if |sub| <= |s| && s[..|sub|] == sub then true
    else if |s| == 0 then false
    else Contains(s[1..], sub)
  }

  /** A copy of `sub` at any position makes `Contains` hold. */
  lemma {:induction false} OccursImpliesContains(s: string, sub: string, i: int)
    requires OccursAt(s, sub, i)
    ensures Contains(s, sub)
    decreases i
  {
    if i == 0 {
      assert s[..|sub|] == s[0..|sub|];
    } else if !(|sub| <= |s| && s[..|sub|] == sub) {
      assert s[1..][i - 1..i - 1 + |sub|] == s[i..i + |sub|];
      OccursImpliesContains(s[1..], sub, i - 1);
    }
  }

  /** `Contains` only holds when some position of `s` starts a copy of `sub`. */
  lemma {:induction false} ContainsImpliesOccurs(s: string, sub: string)
    requires Contains(s, sub)
    ensures exists i :: OccursAt(s, sub, i)
    decreases |s|
  {
    if |sub| <= |s| && s[..|sub|] == sub {
      assert OccursAt(s, sub, 0);
    } else {
      ContainsImpliesOccurs(s[1..], sub);
      var i :| OccursAt(s[1..], sub, i);
      assert s[1..][i..i + |sub|] == s[i + 1..i + 1 + |sub|];
      assert OccursAt(s, sub, i + 1);
    }
  }

  /** Every string contains itself appended to a prefix and followed by a suffix. */
  lemma ContainsInfix(pre: string, sub: string, post: string)
    ensures Contains(pre + sub + post, sub)
  {
    var s := pre + sub + post;
    assert s[|pre|..|pre| + |sub|] == sub;
    OccursImpliesContains(s, sub, |pre|);
  }

  /** Python's `a <= b` on strings: lexicographic by code point, a proper prefix sorts first. */
  predicate LexLe(a: string, b: string)
    decreases |a|
  {
    if |a| == 0 then true
    else if |b| == 0 then false
    else if a[0] != b[0] then a[0] < b[0]
    else LexLe(a[1..], b[1..])
  }

  lemma {:induction false} LexLeReflexive(a: string)
    ensures LexLe(a, a)
    decreases |a|
  {
    if |a| > 0 { LexLeReflexive(a[1..]); }
  }

  lemma {:induction false} LexLeTotal(a: string, b: string)
    ensures LexLe(a, b) || LexLe(b, a)
    decreases |a|
  {
    if |a| > 0 && |b| > 0 && a[0] == b[0] { LexLeTotal(a[1..], b[1..]); }
  }

  lemma {:induction false} LexLeAntisymmetric(a: string, b: string)
    requires LexLe(a, b) && LexLe(b, a)
    ensures a == b
    decreases |a|
  {
    if |a| > 0 {
      LexLeAntisymmetric(a[1..], b[1..]);
      assert a == [a[0]] + a[1..] && b == [b[0]] + b[1..];
    }
  }

  lemma {:induction false} LexLeTransitive(a: string, b: string, c: string)
    requires LexLe(a, b) && LexLe(b, c)
    ensures LexLe(a, c)
    decreases |a|
  {
    if |a| > 0 && |b| > 0 && |c| > 0 && a[0] == b[0] && b[0] == c[0] {
      LexLeTransitive(a[1..], b[1..], c[1..]);
    }
  }

  /** A shared prefix does not change the order of two strings: the order of `root/x` paths is the order of the names `x`. */
  lemma {:induction false} LexLeCommonPrefix(p: string, a: string, b: string)
    ensures LexLe(p + a, p + b) <==> LexLe(a, b)
    decreases |p|
  {
    if |p| > 0 {
      assert (p + a)[1..] == p[1..] + a;
      assert (p + b)[1..] == p[1..] + b;
      LexLeCommonPrefix(p[1..], a, b);
    } else {
      assert p + a == a && p + b == b;
    }
  }

  /** `s` is in ascending order of `key`. */
  ghost predicate SortedBy<T>(s: seq<T>, key: T -> string)
  {
    forall i, j :: 0 <= i < j < |s| ==> LexLe(key(s[i]), key(s[j]))
  }

  /** Inserts `x` into an already sorted sequence, before the first element whose key is not less than the key of `x`. */
  function InsertBy<T>(x: T, s: seq<T>, key: T -> string): (r: seq<T>)
    requires SortedBy(s, key)
    ensures multiset(r) == multiset(s) + multiset{x}
    ensures SortedBy(r, key)
    decreases |s|
  {
    if |s| == 0 then [x]
    else if LexLe(key(x), key(s[0])) then
      assert forall j :: 0 <= j < |s| ==> LexLe(key(x), key(s[j])) by {
        forall j | 0 < j < |s| ensures LexLe(key(x), key(s[j])) {
          LexLeTransitive(key(x), key(s[0]), key(s[j]));
        }
      }
      SortedCons(x, s, key);
      [x] + s
    else
      LexLeTotal(key(x), key(s[0]));
      var rest := InsertBy(x, s[1..], key);
      assert s == [s[0]] + s[1..];
      var tail := s[1..];
      assert forall j :: 0 <= j < |tail| ==> LexLe(key(s[0]), key(tail[j])) by {
        forall j | 0 <= j < |tail| ensures LexLe(key(s[0]), key(tail[j])) {
          assert tail[j] == s[j + 1];
        }
      }
      LowerBoundKept(key(s[0]), tail, x, rest, key);
      SortedCons(s[0], rest, key);
      [s[0]] + rest
  }

  /** A key no greater than every key of a sorted sequence can go in front of it. */
  lemma SortedCons<T>(x: T, s: seq<T>, key: T -> string)
    requires SortedBy(s, key)
    requires forall j :: 0 <= j < |s| ==> LexLe(key(x), key(s[j]))
    ensures SortedBy([x] + s, key)
  {
    var r := [x] + s;
    forall i, j | 0 <= i < j < |r| ensures LexLe(key(r[i]), key(r[j])) {
      assert r[j] == s[j - 1];
      if i > 0 { assert r[i] == s[i - 1]; }
    }
  }

  /** A lower bound on every key of `s` and on the key of `x` bounds every key of a permutation of both. */
  lemma LowerBoundKept<T>(lo: string, s: seq<T>, x: T, r: seq<T>, key: T -> string)
    requires multiset(r) == multiset(s) + multiset{x}
    requires forall j :: 0 <= j < |s| ==> LexLe(lo, key(s[j]))
    requires LexLe(lo, key(x))
    ensures forall j :: 0 <= j < |r| ==> LexLe(lo, key(r[j]))
  {
    forall j | 0 <= j < |r| ensures LexLe(lo, key(r[j])) {
      assert r[j] in multiset(r);
      if r[j] != x {
        assert r[j] in multiset(s);
        var k :| 0 <= k < |s| && s[k] == r[j];
      }
    }
  }

  /** Python's `list.sort()` on string keys: a sorted permutation of the input. */
  function SortBy<T>(s: seq<T>, key: T -> string): (r: seq<T>)
    ensures multiset(r) == multiset(s)
    ensures SortedBy(r, key)
    decreases |s|
  {
    if |s| == 0 then []
    else
      assert s == [s[0]] + s[1..];
      InsertBy(s[0], SortBy(s[1..], key), key)
  }
}

=== FILE: wrappers.dfy ===
/** Failure-compatible wrappers shared by the whole model. */
module Wrappers {

  /** Python's `None` versus a present value. */
  datatype Option<+T> = None | Some(value: T)

  /** A computation that either yields a value or raises. */
  datatype Result<+T, +E> = Ok(value: T) | Err(error: E)
}
